=== FILE: README.md ===
# Staking dashboard: crypto balances and fee-period status

A Dafny model of the two pieces of pure derivation logic in the staking
dashboard's front end.

- **The crypto-balance hook** (`hooks/useCryptoBalances.ts`). It builds the
  network-dependent token list: ETH and SNX always, plus WBTC, WETH and renBTC
  on mainnet. It defaults every token's balance to zero when the balances
  query failed or does not list the token. It gates on "loaded", meaning the
  balances query and the exchange-rate query both succeeded. It builds five
  candidate records in the fixed order ETH, WETH, SNX, WBTC, renBTC, each
  priced in USD:
  - ETH and WETH at the `ETH` rate;
  - SNX at the `SNX` rate;
  - WBTC and renBTC at the `sBTC` rate.

  It then drops every record whose balance is not positive and orders the
  rest with lodash's stable `orderBy(…, 'desc')` on the USD value.
- **The dashboard page's derivations** (`pages/index.tsx`). It applies the
  `?? 0` defaults for absent debt data, rates and fee periods. It computes the
  current fee period's start and end as `Date`s and the period's progress. It
  computes the `claimed` flag: some claim's date lies strictly between the
  two bounds. It also derives the staked value and the staking APY.

Modules:

| file | module | what it holds |
|---|---|---|
| `wrappers.dfy` | `Wrappers` | `Option` and `Result` |
| `queries.dfy` | `Queries` | a query result `Query(isSuccess, data)` and the debt snapshot |
| `order_by.dfy` | `OrderBy` | the stable descending sort and its theory: sortedness, permutation, stability, the strict order with ties broken by input position, and uniqueness of that order |
| `tokens.dfy` | `Tokens` | the token-definition list |
| `crypto_balances.dfy` | `CryptoBalances` | the hook and its properties |
| `js_number.dfy` | `JsNumber` | JavaScript numbers with NaN and infinities, `Math.min`, truthiness, and `Date` built from a time value |
| `dashboard.dfy` | `Dashboard` | the page's derivations and their properties |

The hook's three query results, the page's seven, the clock (`Date.now()`),
the network and the contract addresses are all parameters.
`assetToSynth` (in `utils/currencies`) is not part of this model; it is an
arbitrary function parameter.

The model follows the code as written, including where it departs from what
it evidently means to do:
- Line 98 of `pages/index.tsx` displays `stakingApy ? stakingApy : 0`, so a
  degenerate APY is meant to show as 0. But line 71 has no zero guard, and an
  infinite APY is truthy. The page model shows line 71's APY as written, which
  can be +Infinity. A guarded APY is modelled beside it, and the difference
  is recorded under "Findings".
- `currentFeePeriodProgress` (lines 59-62) does not guard a zero duration.
  `Dashboard.CurrentFeePeriodProgress` states that a zero duration gives a
  non-finite value.
- The hook can fail at run time in two cases, and the model reports both as
  `CryptoBalances.Threw`:
  - `balancesQuery.isSuccess` with no data: indexing `balancesQuery.data!` at
    lines 103-107 throws;
  - a rate table that lacks a key a candidate record needs: `Wei.mul` of
    `undefined` at lines 117-142.
- SNX's record is given `assetToSynth(ETH)` as its synth, as line 130 writes
  it.

## Model

| member | source | states |
|---|---|---|
| `Tokens.NetworkName` | hooks/useCryptoBalances.ts:47 | the network name used for the SNX address lookup is never empty; a present non-empty name is used as is, and anything else reads as "mainnet" |
| `Tokens.SnxAddress` | hooks/useCryptoBalances.ts:46-48 | SNX's address is the one recorded for the network name, or the zero address when none (or an empty one) is recorded |
| `Tokens.TokenDefs` | hooks/useCryptoBalances.ts:34-89 | the list has 5 tokens on mainnet and 2 elsewhere; ETH (zero address) comes first and SNX second, then WBTC, WETH and renBTC on mainnet; every token has 18 decimals and chain id 1 |
| `Tokens.RequestedSymbols` | hooks/useCryptoBalances.ts:34-89 | the requested symbols are exactly {ETH, SNX}, plus {WBTC, WETH, renBTC} on mainnet |
| `CryptoBalances.Merge` | hooks/useCryptoBalances.ts:103-108 | each key's balance is the reported one when the balances query succeeded and lists the key, otherwise zero; SNX's transferrable amount is the debt snapshot's, or zero without one |
| `CryptoBalances.IsLoaded` | hooks/useCryptoBalances.ts:99 | the gate holds exactly when the balances and exchange-rate queries both succeeded, with the debt query playing no part; its contract is carried by `CryptoBalances.UseCryptoBalances` (`isLoaded` iff both succeeded, an empty list without it) and `CryptoBalances.DebtQueryOnlyFeedsTransferrable` |
| `CryptoBalances.DefaultBalance` | hooks/useCryptoBalances.ts:103-107 | a token's balance is the reported one when the balances query succeeded and lists it, and zero otherwise; its contract is carried by `CryptoBalances.Merge` and `CryptoBalances.EmittedRecordsArePriced` |
| `CryptoBalances.DefaultTransferrable` | hooks/useCryptoBalances.ts:108 | SNX's transferrable amount is the debt snapshot's, or zero without one, whether or not the debt query succeeded; its contract is carried by `CryptoBalances.Merge` and `CryptoBalances.EmittedRecordsArePriced` |
| `CryptoBalances.Candidate` | hooks/useCryptoBalances.ts:114-144 | a candidate record carries its key's defaulted balance and a USD value equal to that balance times the rate for the key |
| `CryptoBalances.Candidates` | hooks/useCryptoBalances.ts:113-144 | exactly five candidates, one per key, listed in the order ETH, WETH, SNX, WBTC, renBTC; each is the candidate for its key |
| `CryptoBalances.KeepPositive` | hooks/useCryptoBalances.ts:145 | the filter keeps a record if and only if its balance is strictly positive, and keeps the order of a rank-ordered input such as the five candidates |
| `CryptoBalances.FirstMissingRate` | hooks/useCryptoBalances.ts:117-142 | a rate is reported missing if and only if the table lacks one of ETH, SNX, sBTC; the key reported is absent from the table |
| `CryptoBalances.DeriveBalances` | hooks/useCryptoBalances.ts:110-150 | no list unless loaded with a rate table; a failure if and only if a needed rate is missing; otherwise every record has a positive balance, the list is strictly ordered (larger USD value first, ties in candidate order), and it is a permutation of the positive candidates |
| `CryptoBalances.UseCryptoBalances` | hooks/useCryptoBalances.ts:97-165 | the hook fails if and only if the balances query succeeded without data, or it is loaded with a rate table that lacks a needed rate; `isLoaded` holds if and only if both queries succeeded; without loading or without a rate table the list is empty |
| `CryptoBalances.OutputIsPositiveCandidates` | hooks/useCryptoBalances.ts:110-145 | when loaded with a rate table, the output is a permutation of the positive candidates, and every output record is the candidate for its own key |
| `CryptoBalances.ListedIffHeld` | hooks/useCryptoBalances.ts:99-145 | a key is listed if and only if both queries succeeded, the rate table is present, and the balances query reports a strictly positive balance for the key: a failed query, an absent key or a zero or negative balance keep it out |
| `CryptoBalances.EmittedRecordsArePriced` | hooks/useCryptoBalances.ts:108-145 | every emitted record has the defaulted balance and USD value = balance × rate (ETH rate for ETH and WETH, SNX for SNX, sBTC for WBTC and renBTC) and the synth of its asset; only SNX's record carries a transferrable amount, which is zero without a debt snapshot |
| `CryptoBalances.OutputOrderedAndDistinct` | hooks/useCryptoBalances.ts:112-148 | at most five records, ordered by USD value (largest first) with ties in candidate order, and no key listed twice |
| `CryptoBalances.OutputIsTheOrderedArrangement` | hooks/useCryptoBalances.ts:112-148 | any list that holds the positive candidates and has that order is exactly the hook's output |
| `CryptoBalances.DebtQueryOnlyFeedsTransferrable` | hooks/useCryptoBalances.ts:95-132 | replacing the debt query changes neither failure, nor `isLoaded`, nor which records are listed or their order; only SNX's transferrable amount changes |
| `CryptoBalances.RequestedKeys` | hooks/useCryptoBalances.ts:57-89 | a key's balance is requested if and only if the key is ETH or SNX or the network is mainnet |
| `CryptoBalances.OffMainnetListsOnlyEthAndSnx` | hooks/useCryptoBalances.ts:57-107 | off mainnet, when the balances query answers only for requested tokens, the output lists only ETH and SNX records |
| `CryptoBalances.ExampleWallet` | hooks/useCryptoBalances.ts:99-150 | with 2.5 ETH at 3000 and 0 SNX, the hook returns exactly one record, ETH's, worth 7500; SNX is left out rather than listed at zero |
| `OrderBy.Insert` | hooks/useCryptoBalances.ts:112-148 | inserting into a descending list keeps it descending and adds exactly the one element |
| `OrderBy.SortDesc` | hooks/useCryptoBalances.ts:112-148 | the sort's output is a permutation of its input, in descending key order |
| `OrderBy.SortDescStable` | hooks/useCryptoBalances.ts:112-148 | stability: for every key value, the elements carrying it keep their input order |
| `OrderBy.SortDescOrdered` | hooks/useCryptoBalances.ts:112-148 | for input listed in rank order, the output puts larger keys first and breaks ties by rank |
| `OrderBy.OrderedUnique` | hooks/useCryptoBalances.ts:112-148 | two strictly ordered lists with the same elements are equal, so the order determines the output |
| `OrderBy.SortDescMap` | hooks/useCryptoBalances.ts:112-148 | sorting commutes with any map that keeps every key |
| `Dashboard.DefaultFigures` | pages/index.tsx:31-41 | without debt data the current and target ratios, the debt and the collateral are zero; with it they are the snapshot's; the previous period's fees and rewards, the total debt, the sUSD rate and the SNX rate are the queried values when present and zero when absent (for a rate: when the table or its key is absent) |
| `Dashboard.FeePeriodBounds` | pages/index.tsx:45-55 | with a truthy start, the start is startTime × 1000 ms and the end is (startTime + duration) × 1000 ms; without one both are 0; a non-negative duration puts the start no later than the end |
| `Dashboard.CurrentFeePeriodProgress` | pages/index.tsx:59-62 | progress is 0 without a truthy start time; a zero duration gives a non-finite value, since the code has no guard |
| `Dashboard.ProgressWithinPeriod` | pages/index.tsx:59-62 | within a period of positive duration, progress lies between 0 and 1 |
| `Dashboard.ProgressOutsidePeriod` | pages/index.tsx:59-62 | the progress is not clamped: for a period of positive duration it exceeds 1 after the period's end and is negative before its start |
| `Dashboard.ProgressHalfway` | pages/index.tsx:59-62 | half-way through a one-week period the progress is exactly one half |
| `Dashboard.AnyClaimBetween` | pages/index.tsx:76-79 | `some` holds if and only if some claim's date is strictly after the start date and strictly before the end date |
| `Dashboard.CheckClaimedStatus` | pages/index.tsx:73-82 | never claimed without history; claimed only if some claim's timestamp lies strictly between the two bounds |
| `Dashboard.ClaimedIffStrictlyInside` | pages/index.tsx:73-82 | when both bounds are valid dates, claimed holds if and only if history is present and some timestamp t satisfies start < t < end |
| `Dashboard.BoundaryClaimDoesNotCount` | pages/index.tsx:78 | adding a claim stamped exactly at either bound never changes the flag |
| `Dashboard.NoPeriodNeverClaimed` | pages/index.tsx:45-82 | without a current period (or with start time 0) both bounds are 0 and no history counts as claimed |
| `Dashboard.UnrepresentableBoundNeverClaimed` | pages/index.tsx:45-82 | a bound outside the range of valid dates makes an invalid date, and then no history counts as claimed |
| `Dashboard.StakedValueBounded` | pages/index.tsx:66-67 | for non-negative figures the staked value is NaN or a finite amount between 0 and the collateral's full value: backing above the target ratio is not counted |
| `Dashboard.StakingApy` | pages/index.tsx:70-71 | the APY with a zero guard, the value line 98's fallback evidently intends: zero when the total debt or the staked value is zero, and line 71's value otherwise (see `Dashboard.StakingApyOnOrdinaryFigures`) |
| `Dashboard.StakingApyOnOrdinaryFigures` | pages/index.tsx:66-71 | with positive ratios, collateral, SNX rate and total debt the guard changes nothing: the guarded APY equals line 71's value, weekly rewards × debt share × 52 over staked value × SNX rate, with staked value = collateral × min(1, current/target ratio) × SNX rate |
| `Dashboard.StakedValueOrdinary` | pages/index.tsx:67 | with positive ratios, collateral and SNX rate the staked value is the positive amount collateral × min(1, current/target ratio) × SNX rate |
| `Dashboard.StakedValue` | pages/index.tsx:66-67 | `collateral * Math.min(1, currentCRatio / targetCRatio) * SNXRate` in JavaScript arithmetic; its contract is carried by `Dashboard.StakedValueBounded`, `Dashboard.StakedValueOrdinary` and `Dashboard.PageStakedValue` |
| `Dashboard.WeeklyRewards` | pages/index.tsx:70 | `sUSDRate * feesToDistribute + SNXRate * rewardsToDistribute`; positive sUSD fees make it positive (`Dashboard.WeeklyRewardsPositive`), and `Dashboard.StakingApyOnOrdinaryFigures` gives its exact value |
| `Dashboard.WeeklyRewardsPositive` | pages/index.tsx:70 | a positive sUSD rate and positive fees, with non-negative SNX rate and rewards, make the weekly rewards a positive finite number |
| `Dashboard.StakingApyAsWritten` | pages/index.tsx:71 | line 71 with no guard on either denominator, the APY the page displays; `Dashboard.StakingApyOnOrdinaryFigures` gives its value on ordinary figures and `Dashboard.StakingApyAsWrittenCanBeInfinite`, `Dashboard.PageApyInfiniteWithoutTotalDebt` and `Dashboard.PageApyInfiniteWithoutSnxRate` show where it is +Infinity |
| `Dashboard.StakingApyDisplayedFinite` | pages/index.tsx:70-98 | with the guard, the displayed APY of non-negative figures is always finite |
| `Dashboard.StakingApyAsWrittenCanBeInfinite` | pages/index.tsx:66-98 | as written, a zero SNX rate with positive sUSD fees, debt and total debt displays +Infinity; the guarded APY displays 0 |
| `Dashboard.DashboardPage` | pages/index.tsx:84-110 | the page never shows NaN for the staked value or the APY (line 71's APY as written, after line 98's fallback); the active debt is the snapshot's or 0; the next period's start is a valid date exactly when its time value is in range; with no truthy start time the next start is the epoch, progress is 0 and nothing is claimed; `claimed` implies some claim lies strictly inside the period; `Dashboard.PageRatiosAndProgress`, `Dashboard.PageClaimed` and `Dashboard.PageStakedValue` pin the ratios, the flag (both directions) and the staked value |
| `Dashboard.PageRatiosAndProgress` | pages/index.tsx:31-62 | the page's current and target ratios are the debt data's, or zero without it, and its progress is `currentFeePeriodProgress` |
| `Dashboard.PageClaimed` | pages/index.tsx:73-84 | with both bounds valid dates, the page's `claimed` flag is set exactly when the history is present and some claim lies strictly inside the period |
| `Dashboard.PageStakedValue` | pages/index.tsx:66-94 | with positive ratios, collateral and SNX rate the page shows the staked value collateral × min(1, current/target ratio) × SNX rate |
| `Dashboard.OrdinaryStakedValueShown` | pages/index.tsx:67-94 | on ordinary figures the staked value is positive, so `stakedValue ? stakedValue : 0` shows its closed form |
| `Dashboard.PageApyInfiniteWithoutTotalDebt` | pages/index.tsx:41-98 | with no total-debt figure (absent or 0), a positive debt, positive sUSD fees and a positive target ratio, the page shows an APY of +Infinity |
| `Dashboard.PageApyInfiniteWithoutSnxRate` | pages/index.tsx:66-98 | with no SNX rate, and positive sUSD fees, debt, total debt and target ratio, the page shows an APY of +Infinity |
| `Dashboard.NoDebtDataShowsZeroes` | pages/index.tsx:31-102 | without debt data the page shows zero ratios, zero debt, a zero staked value and a zero APY |
| `JsNumber.Add` | pages/index.tsx:70 | the sum of finite numbers is their exact sum; NaN propagates |
| `JsNumber.Mul` | pages/index.tsx:67 | the product of finite numbers is their exact product; NaN propagates |
| `JsNumber.Div` | pages/index.tsx:71 | finite over non-zero divides exactly; finite over zero is NaN exactly when the numerator is zero; NaN propagates |
| `JsNumber.Min` | pages/index.tsx:67 | `Math.min` is NaN when either argument is; otherwise it returns one of its arguments, neither of which is smaller |
| `JsNumber.OrZero` | pages/index.tsx:94-102 | `x ? x : 0` is never NaN; it keeps a truthy value and replaces 0 and NaN with 0 |
| `JsNumber.MakeDate` | pages/index.tsx:45-55 | `new Date(ms)` is a valid date, carrying `ms`, exactly when `ms` is within ±8.64e15 |

## Left out

- Fetching: the query hooks, React rendering and memoisation, Recoil state,
  styled components and i18n. Query results, the network, the contract
  addresses and the clock are inputs.
- `queries/liquidityPools/useCurveSeuroPoolQuery.ts` is network-client
  plumbing, and `sections/history/types.ts` holds only type declarations.
  Neither is part of this model.
- `CryptoBalances.Candidate`: USD values are exact products of reals. `Wei`'s
  18-decimal fixed point truncates each product, and that truncation is not
  modelled.
- `CryptoBalances.DeriveBalances`: it orders by the exact USD value. The code
  sorts by its `toNumber()` float, so two values that round to the same float
  tie in the code, where the model orders them by value.
- `CryptoBalances.UseCryptoBalances`: the model reads a balance table with a
  key for each token, holding its balance, and assumes a `CryptoCurrency`
  constant equals its name ("ETH", "WETH", "SNX", "WBTC", "renBTC").
  `constants/currency` is not part of this model.
- `CryptoBalances.KeepPositive`: the contract states which records are kept
  and, for a strictly rank-ordered input, their order. It does not state
  multiplicities or the order of an arbitrary list, because the hook applies
  the filter only to the five distinct candidates, which are strictly ranked.
- Token definitions: `logoURI` and `tags` are not modelled, because they are
  constant and unused by the derivation.
- `JsNumber`: finite numbers are exact reals. Float rounding, overflow to
  infinity and the sign of zero are not modelled.
- `Dashboard.CurrentFeePeriodProgress`: start times and durations are
  integers, so a NaN or fractional `startTime` from the fee-pool query is not
  modelled.
- The page's formatting (`formatFiatCurrency`, `formatPercent`) is not
  modelled; the model stops at the number handed to it.

## Findings

| source | as written | input that shows it | evidently intended | confidence | as-written member | corrected member |
|---|---|---|---|---|---|---|
| pages/index.tsx:71 | the staking APY divides by `stakedValue * SNXRate` with no guard, and `stakingApy ? stakingApy : 0` (line 98) keeps an infinity | SNX rate 0 (the rates query not yet answered), target ratio 0.25, sUSD rate 1, fees 100, debt 500, total debt 1 000 000: the APY displays +Infinity | line 98's `? … : 0` fallback shows a degenerate APY as 0, so a zero total debt or a zero staked value should give 0 | not executed | `Dashboard.StakingApyAsWrittenCanBeInfinite` | `Dashboard.StakingApy` |

=== FILE: crypto_balances.dfy ===
/**
 * The crypto-balance aggregation of hooks/useCryptoBalances.ts: per-token
 * balances with zero defaults, the "loaded" gate, five fixed candidate
 * records priced in USD, and the list of held tokens ordered by USD value,
 * largest first, ties in candidate order.
 *
 * Amounts are exact reals. The hook's query results, and `assetToSynth`, are
 * inputs.
 */
module CryptoBalances {
  import opened Wrappers
  import opened Queries
  import Tokens
  import OrderBy

  /** The five assets the hook can list. */
  datatype CryptoKey = ETH | WETH | SNX | WBTC | RenBTC

  /** Position of `k`'s record in the candidate list: ETH, WETH, SNX, WBTC, renBTC. */
  function Rank(k: CryptoKey): int {
    match k
    case ETH => 0
    case WETH => 1
    case SNX => 2
    case WBTC => 3
    case RenBTC => 4
  }

  /** The symbol under which the balances query reports `k`; also its token-list symbol. */
  function Symbol(k: CryptoKey): string {
    match k
    case ETH => "ETH"
    case WETH => "WETH"
    case SNX => "SNX"
    case WBTC => "WBTC"
    case RenBTC => "renBTC"
  }

  /** The exchange-rate key that prices `k`: ETH's for WETH, the sBTC synth's for both BTC tokens. */
  function RateKey(k: CryptoKey): string {
    match k
    case ETH => "ETH"
    case WETH => "ETH"
    case SNX => "SNX"
    case WBTC => "sBTC"
    case RenBTC => "sBTC"
  }

  /** The asset handed to `assetToSynth` for `k`'s record. SNX's record is handed ETH. */
  function SynthAsset(k: CryptoKey): string {
    match k
    case ETH => "ETH"
    case WETH => "ETH"
    case SNX => "ETH"
    case WBTC => "BTC"
    case RenBTC => "BTC"
  }

  /** Balance per token symbol, as the balances query returns it. */
  type BalanceTable = map<string, real>

  /** Price per currency key, as the exchange-rate query returns it. */
  type RateTable = map<string, real>

  /** The rate table holds every rate the candidate records use. */
  predicate HasRates(rates: RateTable) {
    "ETH" in rates && "SNX" in rates && "sBTC" in rates
  }

  /** One entry of the hook's output. Only SNX's entry carries a transferrable amount. */
  datatype CryptoBalance = CryptoBalance(
    currencyKey: CryptoKey,
    balance: real,
    usdBalance: real,
    synth: string,
    transferrable: Option<real>)

  function UsdOf(b: CryptoBalance): real { b.usdBalance }

  function RankOf(b: CryptoBalance): int { Rank(b.currencyKey) }

  /** The five balances and SNX's transferrable amount after the zero defaults. */
  datatype Holdings = Holdings(eth: real, snx: real, weth: real, wbtc: real, renbtc: real, transferrableSnx: real) {
    function Of(k: CryptoKey): real {
      match k
      case ETH => eth
      case WETH => weth
      case SNX => snx
      case WBTC => wbtc
      case RenBTC => renbtc
    }
  }

  /**
   * Why the hook fails to produce a value: the balances query reports success
   * without data (so its result cannot be indexed), or a rate a candidate
   * record needs is absent from the rate table (so the multiplication
   * receives `undefined`).
   */
  datatype Fault = BalancesDataMissing | RateMissing(rateKey: string)

  /** What the hook gives its caller, or the fault that stops it. */
  datatype HookResult = Returned(balances: seq<CryptoBalance>, isLoaded: bool) | Threw(fault: Fault)

  /** Both queries the derivation needs have succeeded; the debt query plays no part. */
  predicate IsLoaded(balancesQuery: Query<BalanceTable>, exchangeRatesQuery: Query<RateTable>) {
    balancesQuery.isSuccess && exchangeRatesQuery.isSuccess
  }

  /** The query reports success without data: the hook cannot index its result. */
  predicate SucceededWithoutData<T>(q: Query<T>) {
    q.isSuccess && q.data.None?
  }

  /**
   * The balance the hook uses for `k`: the reported one when the balances
   * query succeeded and lists `k`, and zero otherwise.
   */
  function DefaultBalance(balancesQuery: Query<BalanceTable>, k: CryptoKey): real
    requires !SucceededWithoutData(balancesQuery)
  {
    if balancesQuery.isSuccess && Symbol(k) in balancesQuery.data.value
    then balancesQuery.data.value[Symbol(k)]
    else 0.0
  }

  /** SNX's transferrable amount: the debt snapshot's, or zero when there is none. */
  function DefaultTransferrable(debtQuery: Query<DebtData>): real {
    if debtQuery.data.Some? then debtQuery.data.value.transferable else 0.0
  }

  /** The per-token defaults of lines 103-108, gathered into one record. */
  function Merge(balancesQuery: Query<BalanceTable>, debtQuery: Query<DebtData>): (h: Holdings)
    requires !SucceededWithoutData(balancesQuery)
    ensures forall k :: h.Of(k) == DefaultBalance(balancesQuery, k)
    ensures h.transferrableSnx == DefaultTransferrable(debtQuery)
  {
    Holdings(
      DefaultBalance(balancesQuery, ETH),
      DefaultBalance(balancesQuery, SNX),
      DefaultBalance(balancesQuery, WETH),
      DefaultBalance(balancesQuery, WBTC),
      DefaultBalance(balancesQuery, RenBTC),
      DefaultTransferrable(debtQuery))
  }

  /** The USD value of `amount` units at `rate` dollars each (the Wei product, exactly). */
  function UsdValue(amount: real, rate: real): real {
    amount * rate
  }

  /** The candidate record for `k`. */
  function Candidate(h: Holdings, rates: RateTable, assetToSynth: string -> string, k: CryptoKey): (c: CryptoBalance)
    requires HasRates(rates)
    ensures c.currencyKey == k && c.balance == h.Of(k)
    ensures c.usdBalance == UsdValue(c.balance, rates[RateKey(k)])
  {
    CryptoBalance(
      k,
      h.Of(k),
      UsdValue(h.Of(k), rates[RateKey(k)]),
      assetToSynth(SynthAsset(k)),
      if k == SNX then Some(h.transferrableSnx) else None)
  }

  /** The five candidate records, in the order the hook lists them. */
  function Candidates(h: Holdings, rates: RateTable, assetToSynth: string -> string): (cs: seq<CryptoBalance>)
    requires HasRates(rates)
    ensures |cs| == 5
    ensures OrderBy.StrictlyRanked(cs, RankOf)
    ensures forall k :: Candidate(h, rates, assetToSynth, k) in cs
    ensures forall c :: c in cs ==> c == Candidate(h, rates, assetToSynth, c.currencyKey)
  {
    var cs := [
      Candidate(h, rates, assetToSynth, ETH),
      Candidate(h, rates, assetToSynth, WETH),
      Candidate(h, rates, assetToSynth, SNX),
      Candidate(h, rates, assetToSynth, WBTC),
      Candidate(h, rates, assetToSynth, RenBTC)
    ];
    assert forall i :: 0 <= i < 5 ==>
      cs[i] == Candidate(h, rates, assetToSynth, cs[i].currencyKey) && RankOf(cs[i]) == i;
    assert forall k :: cs[Rank(k)] == Candidate(h, rates, assetToSynth, k);
    cs
  }

  /**
   * The records whose balance is strictly positive, in their original order.
   * The contract states membership, and order only for rank-ordered input:
   * that is all the hook needs, since it applies the filter to the five
   * distinct candidates, which are strictly ranked.
   */
  function KeepPositive(s: seq<CryptoBalance>): (r: seq<CryptoBalance>)
    ensures |r| <= |s|
    ensures forall b :: b in r <==> b in s && b.balance > 0.0
    ensures OrderBy.StrictlyRanked(s, RankOf) ==> OrderBy.StrictlyRanked(r, RankOf)
  {
    if s == [] then []
    else
      var rest := KeepPositive(s[1..]);
      assert s == [s[0]] + s[1..];
      KeepRanked(s, rest);
      if s[0].balance > 0.0 then [s[0]] + rest else rest
  }

  /** Dropping or keeping the head of a rank-ordered list, in front of a rank-ordered selection of its tail, keeps rank order. */
  lemma KeepRanked(s: seq<CryptoBalance>, rest: seq<CryptoBalance>)
    requires s != []
    requires forall b :: b in rest ==> b in s[1..]
    requires OrderBy.StrictlyRanked(s[1..], RankOf) ==> OrderBy.StrictlyRanked(rest, RankOf)
    ensures OrderBy.StrictlyRanked(s, RankOf) ==>
              OrderBy.StrictlyRanked(rest, RankOf) && OrderBy.StrictlyRanked([s[0]] + rest, RankOf)
  {
    if OrderBy.StrictlyRanked(s, RankOf) {
      var t := s[1..];
      forall i, j | 0 <= i < j < |t| ensures RankOf(t[i]) < RankOf(t[j]) {
        assert t[i] == s[i + 1] && t[j] == s[j + 1];
      }
      var r := [s[0]] + rest;
      forall i, j | 0 <= i < j < |r| ensures RankOf(r[i]) < RankOf(r[j]) {
        if i == 0 {
          assert r[j] == rest[j - 1] && rest[j - 1] in t;
          var k :| 0 <= k < |t| && t[k] == r[j];
          assert s[k + 1] == r[j];
        } else {
          assert r[i] == rest[i - 1] && r[j] == rest[j - 1];
        }
      }
    }
  }

  /** The first rate, in the order the candidate records are built, that the table lacks. */
  function FirstMissingRate(rates: RateTable): (missing: Option<string>)
    ensures missing.None? <==> HasRates(rates)
    ensures missing.Some? ==> missing.value !in rates
  {
    if "ETH" !in rates then Some("ETH")
    else if "SNX" !in rates then Some("SNX")
    else if "sBTC" !in rates then Some("sBTC")
    else None
  }

  /**
   * The memoised derivation of lines 110-150: nothing unless loaded with a
   * rate table; otherwise the positive-balance candidates, stably sorted by
   * USD value, largest first.
   */
  function DeriveBalances(isLoaded: bool, exchangeRates: Option<RateTable>, h: Holdings, assetToSynth: string -> string)
    : (r: Result<seq<CryptoBalance>, Fault>)
    ensures !isLoaded || exchangeRates.None? ==> r == Success([])
    ensures r.Failure? <==> isLoaded && exchangeRates.Some? && !HasRates(exchangeRates.value)
    ensures r.Failure? ==> r.error.RateMissing? && r.error.rateKey !in exchangeRates.value
    ensures r.Success? ==> forall b :: b in r.value ==> b.balance > 0.0
    ensures r.Success? ==> OrderBy.OrderedBy(r.value, UsdOf, RankOf)
    ensures r.Success? && isLoaded && exchangeRates.Some? ==>
              multiset(r.value) == multiset(KeepPositive(Candidates(h, exchangeRates.value, assetToSynth)))
  {
    if isLoaded && exchangeRates.Some? then
      match FirstMissingRate(exchangeRates.value)
      case Some(key) => Failure(RateMissing(key))
      case None =>
        var kept := KeepPositive(Candidates(h, exchangeRates.value, assetToSynth));
        OrderBy.SortDescOrdered(kept, UsdOf, RankOf);
        var sorted := OrderBy.SortDesc(kept, UsdOf);
        assert forall b :: b in sorted ==> b in multiset(kept);
        Success(sorted)
    else Success([])
  }

  /** The hook of lines 25-166, given its three query results. */
  function UseCryptoBalances(
    balancesQuery: Query<BalanceTable>,
    exchangeRatesQuery: Query<RateTable>,
    debtQuery: Query<DebtData>,
    assetToSynth: string -> string): (r: HookResult)
    ensures r.Threw? <==>
              SucceededWithoutData(balancesQuery)
              || (IsLoaded(balancesQuery, exchangeRatesQuery)
                  && exchangeRatesQuery.data.Some? && !HasRates(exchangeRatesQuery.data.value))
    ensures r.Returned? ==> (r.isLoaded <==> balancesQuery.isSuccess && exchangeRatesQuery.isSuccess)
    ensures r.Returned? && (!r.isLoaded || exchangeRatesQuery.data.None?) ==> r.balances == []
  {
    if SucceededWithoutData(balancesQuery) then Threw(BalancesDataMissing)
    else
      var isLoaded := IsLoaded(balancesQuery, exchangeRatesQuery);
      match DeriveBalances(isLoaded, exchangeRatesQuery.data, Merge(balancesQuery, debtQuery), assetToSynth)
      case Success(balances) => Returned(balances, isLoaded)
      case Failure(fault) => Threw(fault)
  }

  // ---------------------------------------------------------------------------
  // Properties of the hook's output

  /** Some record of `balances` carries the key `k`. */
  ghost predicate Listed(balances: seq<CryptoBalance>, k: CryptoKey) {
    exists i :: 0 <= i < |balances| && balances[i].currencyKey == k
  }

  /** When the hook derives a list, it lists positive candidates, each the candidate for its key. */
  lemma OutputIsPositiveCandidates(
    balancesQuery: Query<BalanceTable>,
    exchangeRatesQuery: Query<RateTable>,
    debtQuery: Query<DebtData>,
    assetToSynth: string -> string)
    requires UseCryptoBalances(balancesQuery, exchangeRatesQuery, debtQuery, assetToSynth).Returned?
    requires IsLoaded(balancesQuery, exchangeRatesQuery) && exchangeRatesQuery.data.Some?
    ensures HasRates(exchangeRatesQuery.data.value)
    ensures var bs := UseCryptoBalances(balancesQuery, exchangeRatesQuery, debtQuery, assetToSynth).balances;
            var h := Merge(balancesQuery, debtQuery);
            && multiset(bs) == multiset(KeepPositive(Candidates(h, exchangeRatesQuery.data.value, assetToSynth)))
            && forall b :: b in bs ==> b == Candidate(h, exchangeRatesQuery.data.value, assetToSynth, b.currencyKey)
  {
    var bs := UseCryptoBalances(balancesQuery, exchangeRatesQuery, debtQuery, assetToSynth).balances;
    var h := Merge(balancesQuery, debtQuery);
    var kept := KeepPositive(Candidates(h, exchangeRatesQuery.data.value, assetToSynth));
    forall b | b in bs ensures b == Candidate(h, exchangeRatesQuery.data.value, assetToSynth, b.currencyKey) {
      assert b in multiset(kept);
    }
  }

  /**
   * A key is listed exactly when both queries succeeded, the rate table is
   * present, and the balance reported for the key is strictly positive: a
   * failed query, an absent key, a zero or a negative balance all leave the
   * key out.
   */
  lemma {:induction false} ListedIffHeld(
    balancesQuery: Query<BalanceTable>,
    exchangeRatesQuery: Query<RateTable>,
    debtQuery: Query<DebtData>,
    assetToSynth: string -> string,
    k: CryptoKey)
    requires UseCryptoBalances(balancesQuery, exchangeRatesQuery, debtQuery, assetToSynth).Returned?
    ensures var r := UseCryptoBalances(balancesQuery, exchangeRatesQuery, debtQuery, assetToSynth);
            Listed(r.balances, k) <==>
              && balancesQuery.isSuccess && exchangeRatesQuery.isSuccess && exchangeRatesQuery.data.Some?
              && Symbol(k) in balancesQuery.data.value && balancesQuery.data.value[Symbol(k)] > 0.0
  {
    var r := UseCryptoBalances(balancesQuery, exchangeRatesQuery, debtQuery, assetToSynth);
    if IsLoaded(balancesQuery, exchangeRatesQuery) && exchangeRatesQuery.data.Some? {
      OutputIsPositiveCandidates(balancesQuery, exchangeRatesQuery, debtQuery, assetToSynth);
      var rates := exchangeRatesQuery.data.value;
      var h := Merge(balancesQuery, debtQuery);
      var kept := KeepPositive(Candidates(h, rates, assetToSynth));
      var c := Candidate(h, rates, assetToSynth, k);
      if c.balance > 0.0 {
        assert c in kept;
        assert c in multiset(r.balances);
        var i :| 0 <= i < |r.balances| && r.balances[i] == c;
        assert r.balances[i].currencyKey == k;
      }
      if Listed(r.balances, k) {
        var i :| 0 <= i < |r.balances| && r.balances[i].currencyKey == k;
        assert r.balances[i] in r.balances;
        assert r.balances[i] == c;
        assert r.balances[i] in multiset(kept);
      }
    }
  }

  /**
   * `b` is the record the hook builds for its key: the defaulted balance,
   * priced with the rate for the key (ETH's for ETH and WETH, SNX's for SNX,
   * sBTC's for WBTC and renBTC), the synth of its asset, and a transferrable
   * amount on SNX's record only, zero when there is no debt snapshot.
   */
  ghost predicate PricedRecord(
    b: CryptoBalance,
    balancesQuery: Query<BalanceTable>,
    rates: RateTable,
    debtQuery: Query<DebtData>,
    assetToSynth: string -> string)
    requires !SucceededWithoutData(balancesQuery)
  {
    && RateKey(b.currencyKey) in rates
    && b.balance == DefaultBalance(balancesQuery, b.currencyKey)
    && b.usdBalance == UsdValue(b.balance, rates[RateKey(b.currencyKey)])
    && b.synth == assetToSynth(SynthAsset(b.currencyKey))
    && (b.transferrable.Some? <==> b.currencyKey == SNX)
    && (b.transferrable.Some? ==> b.transferrable.value == DefaultTransferrable(debtQuery))
  }

  /** Every emitted record is priced as `PricedRecord` describes. */
  lemma EmittedRecordsArePriced(
    balancesQuery: Query<BalanceTable>,
    exchangeRatesQuery: Query<RateTable>,
    debtQuery: Query<DebtData>,
    assetToSynth: string -> string)
    requires UseCryptoBalances(balancesQuery, exchangeRatesQuery, debtQuery, assetToSynth).Returned?
    ensures var r := UseCryptoBalances(balancesQuery, exchangeRatesQuery, debtQuery, assetToSynth);
            r.balances != [] ==> exchangeRatesQuery.data.Some?
    ensures var r := UseCryptoBalances(balancesQuery, exchangeRatesQuery, debtQuery, assetToSynth);
            forall b :: b in r.balances ==>
              PricedRecord(b, balancesQuery, exchangeRatesQuery.data.value, debtQuery, assetToSynth)
  {
    var r := UseCryptoBalances(balancesQuery, exchangeRatesQuery, debtQuery, assetToSynth);
    if IsLoaded(balancesQuery, exchangeRatesQuery) && exchangeRatesQuery.data.Some? {
      OutputIsPositiveCandidates(balancesQuery, exchangeRatesQuery, debtQuery, assetToSynth);
      var rates := exchangeRatesQuery.data.value;
      forall b | b in r.balances ensures PricedRecord(b, balancesQuery, rates, debtQuery, assetToSynth) {
        CandidateIsPriced(balancesQuery, debtQuery, rates, assetToSynth, b);
      }
    } else {
      assert r.balances == [];
    }
  }

  lemma CandidateIsPriced(
    balancesQuery: Query<BalanceTable>,
    debtQuery: Query<DebtData>,
    rates: RateTable,
    assetToSynth: string -> string,
    b: CryptoBalance)
    requires !SucceededWithoutData(balancesQuery) && HasRates(rates)
    requires b == Candidate(Merge(balancesQuery, debtQuery), rates, assetToSynth, b.currencyKey)
    ensures PricedRecord(b, balancesQuery, rates, debtQuery, assetToSynth)
  {
  }

  /**
   * The output is ordered by USD value, largest first, ties in candidate
   * order; it has at most five records and never lists a key twice.
   */
  lemma {:induction false} OutputOrderedAndDistinct(
    balancesQuery: Query<BalanceTable>,
    exchangeRatesQuery: Query<RateTable>,
    debtQuery: Query<DebtData>,
    assetToSynth: string -> string)
    requires UseCryptoBalances(balancesQuery, exchangeRatesQuery, debtQuery, assetToSynth).Returned?
    ensures var bs := UseCryptoBalances(balancesQuery, exchangeRatesQuery, debtQuery, assetToSynth).balances;
            && |bs| <= 5
            && (forall i, j :: 0 <= i < j < |bs| ==>
                  bs[i].usdBalance > bs[j].usdBalance
                  || (bs[i].usdBalance == bs[j].usdBalance && Rank(bs[i].currencyKey) < Rank(bs[j].currencyKey)))
            && (forall i, j :: 0 <= i < j < |bs| ==> bs[i].currencyKey != bs[j].currencyKey)
  {
    var bs := UseCryptoBalances(balancesQuery, exchangeRatesQuery, debtQuery, assetToSynth).balances;
    assert OrderBy.OrderedBy(bs, UsdOf, RankOf);
    if IsLoaded(balancesQuery, exchangeRatesQuery) && exchangeRatesQuery.data.Some? {
      var rates := exchangeRatesQuery.data.value;
      var h := Merge(balancesQuery, debtQuery);
      var kept := KeepPositive(Candidates(h, rates, assetToSynth));
      assert |bs| == |multiset(bs)| == |multiset(kept)| == |kept| <= 5;
      forall i, j | 0 <= i < j < |bs| ensures bs[i].currencyKey != bs[j].currencyKey {
        assert bs[i] in multiset(kept) && bs[j] in multiset(kept);
        assert bs[i] == Candidate(h, rates, assetToSynth, bs[i].currencyKey);
        assert bs[j] == Candidate(h, rates, assetToSynth, bs[j].currencyKey);
        assert OrderBy.Precedes(bs[i], bs[j], UsdOf, RankOf);
      }
    }
  }

  /**
   * The output is the one strictly ordered arrangement of the positive
   * candidates: any list that holds the same records and is ordered by USD
   * value, largest first, ties in candidate order, is the hook's output.
   */
  lemma OutputIsTheOrderedArrangement(
    balancesQuery: Query<BalanceTable>,
    exchangeRatesQuery: Query<RateTable>,
    debtQuery: Query<DebtData>,
    assetToSynth: string -> string,
    arrangement: seq<CryptoBalance>)
    requires !SucceededWithoutData(balancesQuery)
    requires IsLoaded(balancesQuery, exchangeRatesQuery)
    requires exchangeRatesQuery.data.Some? && HasRates(exchangeRatesQuery.data.value)
    requires multiset(arrangement)
             == multiset(KeepPositive(Candidates(Merge(balancesQuery, debtQuery), exchangeRatesQuery.data.value, assetToSynth)))
    requires OrderBy.OrderedBy(arrangement, UsdOf, RankOf)
    ensures UseCryptoBalances(balancesQuery, exchangeRatesQuery, debtQuery, assetToSynth) == Returned(arrangement, true)
  {
    var r := UseCryptoBalances(balancesQuery, exchangeRatesQuery, debtQuery, assetToSynth);
    OrderBy.OrderedUnique(r.balances, arrangement, UsdOf, RankOf);
  }

  /** Sets the transferrable amount of SNX's record to `amount`, leaving other records as they are. */
  function WithTransferrable(amount: real): CryptoBalance -> CryptoBalance {
    (b: CryptoBalance) => b.(transferrable := if b.currencyKey == SNX then Some(amount) else None)
  }

  /** Changing only the transferrable amount changes only SNX's candidate record, and only in that field. */
  lemma CandidatesWithTransferrable(h: Holdings, h': Holdings, rates: RateTable, assetToSynth: string -> string)
    requires HasRates(rates)
    requires h' == h.(transferrableSnx := h'.transferrableSnx)
    ensures Candidates(h', rates, assetToSynth)
            == OrderBy.MapSeq(WithTransferrable(h'.transferrableSnx), Candidates(h, rates, assetToSynth))
  {
    var f := WithTransferrable(h'.transferrableSnx);
    var cs := Candidates(h, rates, assetToSynth);
    var cs' := Candidates(h', rates, assetToSynth);
    var mapped := OrderBy.MapSeq(f, cs);
    forall i | 0 <= i < 5 ensures cs'[i] == mapped[i] {
      var k := cs[i].currencyKey;
      assert cs[i] == Candidate(h, rates, assetToSynth, k);
      assert cs'[i] == Candidate(h', rates, assetToSynth, k);
      CandidateWithTransferrable(h, h', rates, assetToSynth, k);
    }
  }

  lemma CandidateWithTransferrable(h: Holdings, h': Holdings, rates: RateTable, assetToSynth: string -> string, k: CryptoKey)
    requires HasRates(rates)
    requires h' == h.(transferrableSnx := h'.transferrableSnx)
    ensures Candidate(h', rates, assetToSynth, k) == WithTransferrable(h'.transferrableSnx)(Candidate(h, rates, assetToSynth, k))
  {
    assert h'.Of(k) == h.Of(k);
  }

  lemma {:induction false} KeepPositiveMap(f: CryptoBalance -> CryptoBalance, s: seq<CryptoBalance>)
    requires forall b :: f(b).balance == b.balance
    ensures KeepPositive(OrderBy.MapSeq(f, s)) == OrderBy.MapSeq(f, KeepPositive(s))
  {
    if s != [] {
      KeepPositiveMap(f, s[1..]);
      assert OrderBy.MapSeq(f, s)[1..] == OrderBy.MapSeq(f, s[1..]);
    }
  }

  /**
   * The debt query affects nothing but SNX's transferrable amount: with any
   * other debt query the hook fails or returns alike, and its output lists
   * the same records in the same order.
   */
  lemma DebtQueryOnlyFeedsTransferrable(
    balancesQuery: Query<BalanceTable>,
    exchangeRatesQuery: Query<RateTable>,
    debtQuery: Query<DebtData>,
    debtQuery': Query<DebtData>,
    assetToSynth: string -> string)
    ensures var r := UseCryptoBalances(balancesQuery, exchangeRatesQuery, debtQuery, assetToSynth);
            var r' := UseCryptoBalances(balancesQuery, exchangeRatesQuery, debtQuery', assetToSynth);
            && r.Threw? == r'.Threw?
            && (r.Returned? ==>
                  && r.isLoaded == r'.isLoaded
                  && |r.balances| == |r'.balances|
                  && forall i :: 0 <= i < |r.balances| ==>
                       r'.balances[i] == WithTransferrable(DefaultTransferrable(debtQuery'))(r.balances[i]))
  {
    var r := UseCryptoBalances(balancesQuery, exchangeRatesQuery, debtQuery, assetToSynth);
    var r' := UseCryptoBalances(balancesQuery, exchangeRatesQuery, debtQuery', assetToSynth);
    if r.Returned? && IsLoaded(balancesQuery, exchangeRatesQuery) && exchangeRatesQuery.data.Some? {
      var rates := exchangeRatesQuery.data.value;
      var h := Merge(balancesQuery, debtQuery);
      var h' := Merge(balancesQuery, debtQuery');
      var f := WithTransferrable(DefaultTransferrable(debtQuery'));
      var cs := Candidates(h, rates, assetToSynth);
      CandidatesWithTransferrable(h, h', rates, assetToSynth);
      KeepPositiveMap(f, cs);
      OrderBy.SortDescMap(f, KeepPositive(cs), UsdOf);
    }
  }

  // ---------------------------------------------------------------------------
  // The token list and the keys that can be listed

  /** A key's balance is requested exactly when the key is ETH or SNX, or the network is mainnet. */
  lemma RequestedKeys(network: Option<Tokens.Network>, contracts: Tokens.ContractAddresses, k: CryptoKey)
    ensures Symbol(k) in Tokens.Symbols(Tokens.TokenDefs(network, contracts))
            <==> Tokens.IsMainnet(network) || k == ETH || k == SNX
  {
    Tokens.RequestedSymbols(network, contracts);
  }

  /** The balances query reports no token outside the list it was asked about. */
  ghost predicate AnswersOnlyFor(defs: seq<Tokens.TokenDef>, balancesQuery: Query<BalanceTable>) {
    balancesQuery.data.Some? ==> forall s :: s in balancesQuery.data.value ==> s in Tokens.Symbols(defs)
  }

  /**
   * Off mainnet the wrapped tokens are never requested, so their balances
   * default to zero and only ETH and SNX records can be listed.
   */
  lemma OffMainnetListsOnlyEthAndSnx(
    network: Option<Tokens.Network>,
    contracts: Tokens.ContractAddresses,
    balancesQuery: Query<BalanceTable>,
    exchangeRatesQuery: Query<RateTable>,
    debtQuery: Query<DebtData>,
    assetToSynth: string -> string)
    requires !Tokens.IsMainnet(network)
    requires AnswersOnlyFor(Tokens.TokenDefs(network, contracts), balancesQuery)
    requires UseCryptoBalances(balancesQuery, exchangeRatesQuery, debtQuery, assetToSynth).Returned?
    ensures var r := UseCryptoBalances(balancesQuery, exchangeRatesQuery, debtQuery, assetToSynth);
            forall b :: b in r.balances ==> b.currencyKey == ETH || b.currencyKey == SNX
  {
    var r := UseCryptoBalances(balancesQuery, exchangeRatesQuery, debtQuery, assetToSynth);
    forall b | b in r.balances ensures b.currencyKey == ETH || b.currencyKey == SNX {
      var i :| 0 <= i < |r.balances| && r.balances[i] == b;
      assert Listed(r.balances, b.currencyKey);
      ListedIffHeld(balancesQuery, exchangeRatesQuery, debtQuery, assetToSynth, b.currencyKey);
      RequestedKeys(network, contracts, b.currencyKey);
    }
  }

  /** A wallet holding 2.5 ETH and no SNX. */
  const ExampleBalances: Query<BalanceTable> := Query(true, Some(map["ETH" := 2.5, "SNX" := 0.0]))

  /** ETH at 3000, SNX at 2, sBTC at 40000. */
  const ExampleRates: RateTable := map["ETH" := 3000.0, "SNX" := 2.0, "sBTC" := 40000.0]

  /** The example wallet's defaulted holdings: 2.5 ETH and nothing else. */
  lemma ExampleHoldings(debtQuery: Query<DebtData>)
    ensures var h := Merge(ExampleBalances, debtQuery);
            h.eth == 2.5 && h.weth == 0.0 && h.snx == 0.0 && h.wbtc == 0.0 && h.renbtc == 0.0
  {
    var h := Merge(ExampleBalances, debtQuery);
    assert h.Of(ETH) == 2.5 && h.Of(WETH) == 0.0 && h.Of(SNX) == 0.0 && h.Of(WBTC) == 0.0 && h.Of(RenBTC) == 0.0;
  }

  /** The example wallet's only positive candidate is ETH's, worth 7500. */
  lemma ExampleCandidates(assetToSynth: string -> string, debtQuery: Query<DebtData>)
    ensures var h := Merge(ExampleBalances, debtQuery);
            var kept := KeepPositive(Candidates(h, ExampleRates, assetToSynth));
            kept == [Candidate(h, ExampleRates, assetToSynth, ETH)] && kept[0].usdBalance == 7500.0
  {
    var h := Merge(ExampleBalances, debtQuery);
    ExampleHoldings(debtQuery);
    var cs := Candidates(h, ExampleRates, assetToSynth);
    assert cs[1].balance == 0.0 && cs[2].balance == 0.0 && cs[3].balance == 0.0 && cs[4].balance == 0.0;
    assert KeepPositive(cs[4..]) == [] && KeepPositive(cs[3..]) == [] && KeepPositive(cs[2..]) == [];
    assert KeepPositive(cs[1..]) == [];
    assert UsdValue(2.5, 3000.0) == 7500.0;
  }

  /**
   * For the example wallet the hook returns exactly one record, ETH's, worth
   * 7500: SNX's zero balance is filtered out, not listed at zero.
   */
  lemma ExampleWallet(assetToSynth: string -> string, debtQuery: Query<DebtData>)
    ensures var r := UseCryptoBalances(ExampleBalances, Query(true, Some(ExampleRates)), debtQuery, assetToSynth);
            && r.Returned? && r.isLoaded && |r.balances| == 1
            && r.balances[0].currencyKey == ETH && r.balances[0].balance == 2.5 && r.balances[0].usdBalance == 7500.0
  {
    var h := Merge(ExampleBalances, debtQuery);
    ExampleCandidates(assetToSynth, debtQuery);
    var eth := Candidate(h, ExampleRates, assetToSynth, ETH);
    assert OrderBy.OrderedBy([eth], UsdOf, RankOf);
    OutputIsTheOrderedArrangement(ExampleBalances, Query(true, Some(ExampleRates)), debtQuery, assetToSynth, [eth]);
  }
}

=== FILE: dashboard.dfy ===
/**
 * The figures the dashboard page (pages/index.tsx) derives from its query
 * results: defaults for absent data, the current fee period's bounds and
 * progress, whether the wallet has claimed in the current period, and the
 * staked value and staking APY.
 *
 * The page's inputs are explicit: each query's data is an `Option`, and the
 * clock is a parameter. Timestamps are integers (seconds for fee periods,
 * milliseconds for dates and claims); the float metrics use `JsNumber`.
 */
module Dashboard {
  import opened Wrappers
  import opened Queries
  import opened JsNumber

  /** A fee period: start (unix seconds), duration (seconds), and what it distributes. */
  datatype FeePeriod = FeePeriod(
    startTime: int,
    feePeriodDuration: int,
    feesToDistribute: real,
    rewardsToDistribute: real)

  /** A fee claim from the wallet's history; `timestamp` is in milliseconds. */
  datatype ClaimTx = ClaimTx(timestamp: int)

  /** The data the page's queries hold; `None` when a query has no data. */
  datatype PageQueries = PageQueries(
    history: Option<seq<ClaimTx>>,
    currentFeePeriod: Option<FeePeriod>,
    debtData: Option<DebtData>,
    currencyRates: Option<map<string, real>>,
    totalIssuedSynthsExclEth: Option<real>,
    exchangeRates: Option<map<string, real>>,
    previousFeePeriod: Option<FeePeriod>)

  /** The page's scalar inputs after the `?? 0` defaults. */
  datatype Figures = Figures(
    currentCRatio: real,
    targetCRatio: real,
    activeDebt: real,
    collateral: real,
    sUSDRate: real,
    feesToDistribute: real,
    rewardsToDistribute: real,
    totalsUSDDebt: real,
    snxRate: real)

  /** `table?.[key] ?? 0`. */
  function RateOrZero(table: Option<map<string, real>>, key: string): real {
    if table.Some? && key in table.value then table.value[key] else 0.0
  }

  /** The defaults of lines 31-41 and 66: every figure of an absent query is zero. */
  function DefaultFigures(q: PageQueries): (f: Figures)
    ensures q.debtData.None? ==>
              f.currentCRatio == 0.0 && f.targetCRatio == 0.0 && f.activeDebt == 0.0 && f.collateral == 0.0
    ensures q.debtData.Some? ==>
              && f.currentCRatio == q.debtData.value.currentCRatio
              && f.targetCRatio == q.debtData.value.targetCRatio
              && f.activeDebt == q.debtData.value.debtBalance
              && f.collateral == q.debtData.value.collateral
    ensures q.previousFeePeriod.None? ==> f.feesToDistribute == 0.0 && f.rewardsToDistribute == 0.0
    ensures q.previousFeePeriod.Some? ==>
              && f.feesToDistribute == q.previousFeePeriod.value.feesToDistribute
              && f.rewardsToDistribute == q.previousFeePeriod.value.rewardsToDistribute
    ensures q.totalIssuedSynthsExclEth.None? ==> f.totalsUSDDebt == 0.0
    ensures q.totalIssuedSynthsExclEth.Some? ==> f.totalsUSDDebt == q.totalIssuedSynthsExclEth.value
    ensures q.exchangeRates.None? ==> f.sUSDRate == 0.0
    ensures f.sUSDRate ==
              if q.exchangeRates.Some? && "sUSD" in q.exchangeRates.value then q.exchangeRates.value["sUSD"] else 0.0
    ensures q.currencyRates.None? ==> f.snxRate == 0.0
    ensures f.snxRate ==
              if q.currencyRates.Some? && "SNX" in q.currencyRates.value then q.currencyRates.value["SNX"] else 0.0
  {
    var debt := q.debtData;
    Figures(
      if debt.Some? then debt.value.currentCRatio else 0.0,
      if debt.Some? then debt.value.targetCRatio else 0.0,
      if debt.Some? then debt.value.debtBalance else 0.0,
      if debt.Some? then debt.value.collateral else 0.0,
      RateOrZero(q.exchangeRates, "sUSD"),
      if q.previousFeePeriod.Some? then q.previousFeePeriod.value.feesToDistribute else 0.0,
      if q.previousFeePeriod.Some? then q.previousFeePeriod.value.rewardsToDistribute else 0.0,
      q.totalIssuedSynthsExclEth.GetOr(0.0),
      RateOrZero(q.currencyRates, "SNX"))
  }

  // ---------------------------------------------------------------------------
  // Fee-period bounds and progress (lines 45-62)

  /** `currentFeePeriod.data?.startTime` is truthy: there is a period and its start is not zero. */
  predicate HasStart(p: Option<FeePeriod>) {
    p.Some? && p.value.startTime != 0
  }

  /** The time value, in milliseconds, of `nextFeePeriodStarts`. */
  function NextFeePeriodStartsMs(p: Option<FeePeriod>): int {
    if HasStart(p) then (p.value.startTime + p.value.feePeriodDuration) * 1000 else 0
  }

  /** The time value, in milliseconds, of `currentFeePeriodStarts`. */
  function CurrentFeePeriodStartsMs(p: Option<FeePeriod>): int {
    if HasStart(p) then p.value.startTime * 1000 else 0
  }

  function NextFeePeriodStarts(p: Option<FeePeriod>): JsDate {
    MakeDate(NextFeePeriodStartsMs(p))
  }

  function CurrentFeePeriodStarts(p: Option<FeePeriod>): JsDate {
    MakeDate(CurrentFeePeriodStartsMs(p))
  }

  /**
   * The bounds of the current period: its start and its start plus its
   * duration, in milliseconds, when it has a start; both zero otherwise.
   */
  lemma FeePeriodBounds(p: Option<FeePeriod>)
    ensures HasStart(p) ==>
              && CurrentFeePeriodStartsMs(p) == p.value.startTime * 1000
              && NextFeePeriodStartsMs(p) - CurrentFeePeriodStartsMs(p) == p.value.feePeriodDuration * 1000
    ensures !HasStart(p) ==> CurrentFeePeriodStartsMs(p) == 0 && NextFeePeriodStartsMs(p) == 0
    ensures (p.Some? ==> p.value.feePeriodDuration >= 0) ==>
              CurrentFeePeriodStartsMs(p) <= NextFeePeriodStartsMs(p)
  {
  }

  /**
   * `currentFeePeriodProgress`: the seconds elapsed since the period started,
   * over its duration, or zero when there is no start. There is no guard on
   * the duration.
   */
  function CurrentFeePeriodProgress(p: Option<FeePeriod>, nowMs: int): (progress: Num)
    ensures !HasStart(p) ==> progress == Finite(0.0)
    ensures HasStart(p) && p.value.feePeriodDuration == 0 ==> !progress.Finite?
  {
    if HasStart(p) then
      Div(Finite(nowMs as real / 1000.0 - p.value.startTime as real), Finite(p.value.feePeriodDuration as real))
    else Finite(0.0)
  }

  /** Within a period of positive duration, the progress lies between 0 and 1. */
  lemma ProgressWithinPeriod(p: Option<FeePeriod>, nowMs: int)
    requires HasStart(p) && p.value.feePeriodDuration > 0
    requires CurrentFeePeriodStartsMs(p) <= nowMs <= NextFeePeriodStartsMs(p)
    ensures CurrentFeePeriodProgress(p, nowMs).Finite?
    ensures 0.0 <= CurrentFeePeriodProgress(p, nowMs).v <= 1.0
  {
    var elapsed := nowMs as real / 1000.0 - p.value.startTime as real;
    var duration := p.value.feePeriodDuration as real;
    assert 0.0 <= elapsed <= duration;
    assert elapsed / duration <= 1.0 by {
      assert elapsed / duration * duration == elapsed;
    }
  }

  /**
   * The progress is not clamped: after the end of a period of positive
   * duration it exceeds 1, and before its start it is negative.
   */
  lemma ProgressOutsidePeriod(p: Option<FeePeriod>, nowMs: int)
    requires HasStart(p) && p.value.feePeriodDuration > 0
    ensures nowMs > NextFeePeriodStartsMs(p) ==>
              CurrentFeePeriodProgress(p, nowMs).Finite? && CurrentFeePeriodProgress(p, nowMs).v > 1.0
    ensures nowMs < CurrentFeePeriodStartsMs(p) ==>
              CurrentFeePeriodProgress(p, nowMs).Finite? && CurrentFeePeriodProgress(p, nowMs).v < 0.0
  {
    var elapsed := nowMs as real / 1000.0 - p.value.startTime as real;
    var duration := p.value.feePeriodDuration as real;
    assert CurrentFeePeriodProgress(p, nowMs) == Finite(elapsed / duration);
    if nowMs > NextFeePeriodStartsMs(p) {
      assert nowMs as real > (p.value.startTime + p.value.feePeriodDuration) as real * 1000.0;
      QuotientAboveOne(elapsed, duration);
    }
    if nowMs < CurrentFeePeriodStartsMs(p) {
      assert nowMs as real < p.value.startTime as real * 1000.0;
      NegativeQuotient(elapsed, duration);
    }
  }

  lemma QuotientAboveOne(a: real, b: real)
    requires a > b > 0.0
    ensures a / b > 1.0
  {
    assert a / b * b == a;
  }

  lemma NegativeQuotient(a: real, b: real)
    requires a < 0.0 < b
    ensures a / b < 0.0
  {
    assert a / b * b == a;
  }

  /** Half-way through a one-week period the progress is one half. */
  lemma ProgressHalfway()
    ensures CurrentFeePeriodProgress(Some(FeePeriod(1000, 604800, 0.0, 0.0)), (1000 + 302400) * 1000)
            == Finite(0.5)
  {
  }

  // ---------------------------------------------------------------------------
  // Claim status (lines 73-82)

  /** The claim's date lies strictly after `from` and strictly before `until`, compared as dates. */
  predicate ClaimedBetween(tx: ClaimTx, from: JsDate, until: JsDate) {
    Before(from, MakeDate(tx.timestamp)) && Before(MakeDate(tx.timestamp), until)
  }

  /** `txs.some(...)` with the test of line 78. */
  function AnyClaimBetween(txs: seq<ClaimTx>, from: JsDate, until: JsDate): (found: bool)
    ensures found <==> exists i :: 0 <= i < |txs| && ClaimedBetween(txs[i], from, until)
  {
    if txs == [] then false
    else ClaimedBetween(txs[0], from, until) || AnyClaimBetween(txs[1..], from, until)
  }

  /** `checkClaimedStatus`: false without history, otherwise whether some claim falls inside the current period. */
  function CheckClaimedStatus(history: Option<seq<ClaimTx>>, p: Option<FeePeriod>): (claimed: bool)
    ensures history.None? ==> !claimed
    ensures claimed ==>
              exists i :: 0 <= i < |history.value| &&
                CurrentFeePeriodStartsMs(p) < history.value[i].timestamp < NextFeePeriodStartsMs(p)
  {
    match history
    case None => false
    case Some(txs) => AnyClaimBetween(txs, CurrentFeePeriodStarts(p), NextFeePeriodStarts(p))
  }

  /**
   * When both bounds are valid dates, the wallet has claimed exactly when the
   * history is present and some claim's timestamp lies strictly between them.
   */
  lemma ClaimedIffStrictlyInside(history: Option<seq<ClaimTx>>, p: Option<FeePeriod>)
    requires InDateRange(CurrentFeePeriodStartsMs(p)) && InDateRange(NextFeePeriodStartsMs(p))
    ensures CheckClaimedStatus(history, p) <==>
              history.Some? &&
              exists i :: 0 <= i < |history.value| &&
                CurrentFeePeriodStartsMs(p) < history.value[i].timestamp < NextFeePeriodStartsMs(p)
  {
    if history.Some? {
      var txs := history.value;
      var from := CurrentFeePeriodStarts(p);
      var until := NextFeePeriodStarts(p);
      forall i | 0 <= i < |txs| &&
          CurrentFeePeriodStartsMs(p) < txs[i].timestamp < NextFeePeriodStartsMs(p)
        ensures ClaimedBetween(txs[i], from, until)
      {
        assert InDateRange(txs[i].timestamp);
      }
    }
  }

  /** A claim stamped exactly at either bound of the period does not count. */
  lemma BoundaryClaimDoesNotCount(txs: seq<ClaimTx>, p: Option<FeePeriod>, t: int)
    requires t == CurrentFeePeriodStartsMs(p) || t == NextFeePeriodStartsMs(p)
    ensures CheckClaimedStatus(Some(txs + [ClaimTx(t)]), p) == CheckClaimedStatus(Some(txs), p)
  {
    var from := CurrentFeePeriodStarts(p);
    var until := NextFeePeriodStarts(p);
    var all := txs + [ClaimTx(t)];
    assert !ClaimedBetween(ClaimTx(t), from, until);
    if AnyClaimBetween(all, from, until) {
      var i :| 0 <= i < |all| && ClaimedBetween(all[i], from, until);
      assert i < |txs| && all[i] == txs[i];
    }
    if AnyClaimBetween(txs, from, until) {
      var i :| 0 <= i < |txs| && ClaimedBetween(txs[i], from, until);
      assert all[i] == txs[i];
    }
  }

  /** Without a current period start both bounds are zero, and no history counts as claimed. */
  lemma NoPeriodNeverClaimed(history: Option<seq<ClaimTx>>, p: Option<FeePeriod>)
    requires !HasStart(p)
    ensures !CheckClaimedStatus(history, p)
  {
  }

  /**
   * A bound beyond the range of dates makes an invalid date, every
   * comparison with which is false: no history counts as claimed.
   */
  lemma UnrepresentableBoundNeverClaimed(history: Option<seq<ClaimTx>>, p: Option<FeePeriod>)
    requires !InDateRange(CurrentFeePeriodStartsMs(p)) || !InDateRange(NextFeePeriodStartsMs(p))
    ensures !CheckClaimedStatus(history, p)
  {
  }

  // ---------------------------------------------------------------------------
  // Staked value and staking APY (lines 66-71, 94-98)

  /** `collateral * Math.min(1, currentCRatio / targetCRatio) * SNXRate`. */
  function StakedValue(f: Figures): Num {
    Mul(Mul(Finite(f.collateral), Min(Finite(1.0), Div(Finite(f.currentCRatio), Finite(f.targetCRatio)))),
        Finite(f.snxRate))
  }

  /** `sUSDRate * feesToDistribute + SNXRate * rewardsToDistribute`. */
  function WeeklyRewards(f: Figures): Num {
    Add(Mul(Finite(f.sUSDRate), Finite(f.feesToDistribute)), Mul(Finite(f.snxRate), Finite(f.rewardsToDistribute)))
  }

  /** Line 71 as written: no guard on either denominator. */
  function StakingApyAsWritten(f: Figures): Num {
    Div(Mul(Mul(WeeklyRewards(f), Div(Finite(f.activeDebt), Finite(f.totalsUSDDebt))), Finite(52.0)),
        Mul(StakedValue(f), Finite(f.snxRate)))
  }

  /**
   * The staking APY with a zero guard: zero when the total issued debt or the
   * staked value is zero, otherwise line 71's formula. This is the figure line
   * 98's `stakingApy ? stakingApy : 0` falls back to for a degenerate APY, and
   * which an infinite APY slips past.
   */
  function StakingApy(f: Figures): (apy: Num)
    ensures f.totalsUSDDebt == 0.0 || StakedValue(f) == Finite(0.0) ==> apy == Finite(0.0)
  {
    if f.totalsUSDDebt == 0.0 || StakedValue(f) == Finite(0.0) then Finite(0.0)
    else StakingApyAsWritten(f)
  }

  /**
   * On ordinary figures (positive ratios, collateral, SNX rate and total debt)
   * the guard changes nothing: the guarded APY is line 71's value, in closed
   * form with line 67's staked value.
   */
  lemma StakingApyOnOrdinaryFigures(f: Figures)
    requires NonNegative(f) && f.targetCRatio > 0.0 && f.currentCRatio > 0.0
    requires f.collateral > 0.0 && f.snxRate > 0.0 && f.totalsUSDDebt > 0.0
    ensures StakingApy(f) == StakingApyAsWritten(f)
    ensures var ratio := f.currentCRatio / f.targetCRatio;
            var staked := f.collateral * (if ratio < 1.0 then ratio else 1.0) * f.snxRate;
            var weekly := f.sUSDRate * f.feesToDistribute + f.snxRate * f.rewardsToDistribute;
            StakingApy(f) == Finite(weekly * (f.activeDebt / f.totalsUSDDebt) * 52.0 / (staked * f.snxRate))
  {
    var staked := StakedValueOrdinary(f);
    var weekly := f.sUSDRate * f.feesToDistribute + f.snxRate * f.rewardsToDistribute;
    assert WeeklyRewards(f) == Finite(weekly);
    var numerator := Mul(Mul(WeeklyRewards(f), Div(Finite(f.activeDebt), Finite(f.totalsUSDDebt))), Finite(52.0));
    assert numerator == Finite(weekly * (f.activeDebt / f.totalsUSDDebt) * 52.0);
    PositiveProduct(staked, f.snxRate);
    assert Mul(StakedValue(f), Finite(f.snxRate)) == Finite(staked * f.snxRate);
  }

  /** On ordinary figures line 67's staked value is the positive amount `collateral * min(1, ratio) * SNXRate`. */
  lemma StakedValueOrdinary(f: Figures) returns (staked: real)
    requires f.targetCRatio > 0.0 && f.currentCRatio > 0.0 && f.collateral > 0.0 && f.snxRate > 0.0
    ensures var ratio := f.currentCRatio / f.targetCRatio;
            staked == f.collateral * (if ratio < 1.0 then ratio else 1.0) * f.snxRate
    ensures staked > 0.0 && StakedValue(f) == Finite(staked)
  {
    var ratio := f.currentCRatio / f.targetCRatio;
    PositiveQuotient(f.currentCRatio, f.targetCRatio);
    var share := if ratio < 1.0 then ratio else 1.0;
    assert Min(Finite(1.0), Div(Finite(f.currentCRatio), Finite(f.targetCRatio))) == Finite(share);
    PositiveProduct(f.collateral, share);
    PositiveProduct(f.collateral * share, f.snxRate);
    staked := f.collateral * share * f.snxRate;
  }

  /** No figure is negative. */
  predicate NonNegative(f: Figures) {
    && f.currentCRatio >= 0.0 && f.targetCRatio >= 0.0 && f.activeDebt >= 0.0 && f.collateral >= 0.0
    && f.sUSDRate >= 0.0 && f.feesToDistribute >= 0.0 && f.rewardsToDistribute >= 0.0
    && f.totalsUSDDebt >= 0.0 && f.snxRate >= 0.0
  }

  /**
   * For non-negative figures the staked value is NaN (no target ratio and no
   * current ratio) or a finite amount no larger than the collateral's full
   * value: backing above the target ratio is not counted.
   */
  lemma StakedValueBounded(f: Figures)
    requires NonNegative(f)
    ensures StakedValue(f).NaN? || StakedValue(f).Finite?
    ensures StakedValue(f).Finite? ==> 0.0 <= StakedValue(f).v <= f.collateral * f.snxRate
  {
    var ratio := Div(Finite(f.currentCRatio), Finite(f.targetCRatio));
    var clamp := Min(Finite(1.0), ratio);
    assert clamp.NaN? || (clamp.Finite? && 0.0 <= clamp.v <= 1.0);
    if clamp.Finite? {
      assert StakedValue(f) == Finite(f.collateral * clamp.v * f.snxRate);
      ScaleBelowOne(f.collateral, clamp.v, f.snxRate);
    }
  }

  /** Non-negative amounts scaled by a fraction in [0, 1] stay between 0 and the unscaled product. */
  lemma ScaleBelowOne(c: real, a: real, r: real)
    requires 0.0 <= a <= 1.0 && c >= 0.0 && r >= 0.0
    ensures 0.0 <= c * a * r <= c * r
  {
    ScaleBelow(a, 1.0, c);
    ScaleBelow(c * a, c, r);
  }

  /** Scaling by a non-negative factor keeps `0 <= a <= b`. */
  lemma ScaleBelow(a: real, b: real, c: real)
    requires 0.0 <= a <= b && c >= 0.0
    ensures 0.0 <= c * a <= c * b && 0.0 <= a * c <= b * c
  {
  }

  /**
   * As written, the displayed APY is +Infinity whenever the SNX rate is zero
   * (not yet loaded, say) while the sUSD fees, the wallet's debt and the total
   * debt are positive: the staked value is then zero, the numerator is
   * positive, and `Infinity ? Infinity : 0` keeps the infinity. The guarded
   * APY shows zero for the same figures.
   */
  lemma StakingApyAsWrittenCanBeInfinite(f: Figures)
    requires NonNegative(f) && f.targetCRatio > 0.0 && f.snxRate == 0.0
    requires f.sUSDRate > 0.0 && f.feesToDistribute > 0.0
    requires f.activeDebt > 0.0 && f.totalsUSDDebt > 0.0
    ensures OrZero(StakingApyAsWritten(f)) == PosInf
    ensures OrZero(StakingApy(f)) == Finite(0.0)
  {
    StakedValueWithoutSnxRate(f);
    var numerator := Mul(Mul(WeeklyRewards(f), Div(Finite(f.activeDebt), Finite(f.totalsUSDDebt))), Finite(52.0));
    NumeratorPositive(f);
    assert Mul(StakedValue(f), Finite(f.snxRate)) == Finite(0.0);
    PositiveOverZero(numerator.v);
  }

  /** With a positive target ratio and a zero SNX rate the staked value is zero. */
  lemma StakedValueWithoutSnxRate(f: Figures)
    requires f.targetCRatio > 0.0 && f.snxRate == 0.0
    ensures StakedValue(f) == Finite(0.0)
  {
    var clamp := Min(Finite(1.0), Div(Finite(f.currentCRatio), Finite(f.targetCRatio)));
    assert clamp.Finite?;
    assert StakedValue(f) == Finite(f.collateral * clamp.v * 0.0);
  }

  /** Positive sUSD fees and a positive debt share make the APY's numerator positive. */
  lemma NumeratorPositive(f: Figures)
    requires NonNegative(f) && f.sUSDRate > 0.0 && f.feesToDistribute > 0.0
    requires f.activeDebt > 0.0 && f.totalsUSDDebt > 0.0
    ensures var n := Mul(Mul(WeeklyRewards(f), Div(Finite(f.activeDebt), Finite(f.totalsUSDDebt))), Finite(52.0));
            n.Finite? && n.v > 0.0
  {
    WeeklyRewardsPositive(f);
    var share := Div(Finite(f.activeDebt), Finite(f.totalsUSDDebt));
    PositiveQuotient(f.activeDebt, f.totalsUSDDebt);
    MulPositive(WeeklyRewards(f), share);
    MulPositive(Mul(WeeklyRewards(f), share), Finite(52.0));
  }

  /** Positive sUSD fees make the weekly rewards positive. */
  lemma WeeklyRewardsPositive(f: Figures)
    requires f.sUSDRate > 0.0 && f.feesToDistribute > 0.0
    requires f.snxRate >= 0.0 && f.rewardsToDistribute >= 0.0
    ensures WeeklyRewards(f).Finite? && WeeklyRewards(f).v > 0.0
  {
    PositiveProduct(f.sUSDRate, f.feesToDistribute);
    ScaleBelow(0.0, f.snxRate, f.rewardsToDistribute);
  }

  lemma PositiveQuotient(a: real, b: real)
    requires a > 0.0 && b > 0.0
    ensures Div(Finite(a), Finite(b)) == Finite(a / b) && a / b > 0.0
  {
  }

  lemma MulPositive(a: Num, b: Num)
    requires a.Finite? && b.Finite? && a.v > 0.0 && b.v > 0.0
    ensures Mul(a, b).Finite? && Mul(a, b).v > 0.0
  {
    PositiveProduct(a.v, b.v);
  }

  lemma PositiveProduct(a: real, b: real)
    requires a > 0.0 && b > 0.0
    ensures a * b > 0.0
  {
  }

  /** With the guard, the displayed APY of non-negative figures is always a finite number. */
  lemma StakingApyDisplayedFinite(f: Figures)
    requires NonNegative(f)
    ensures OrZero(StakingApy(f)).Finite?
  {
    StakedValueBounded(f);
    if f.totalsUSDDebt != 0.0 && StakedValue(f) != Finite(0.0) {
      var weekly := WeeklyRewards(f);
      var share := Div(Finite(f.activeDebt), Finite(f.totalsUSDDebt));
      var numerator := Mul(Mul(weekly, share), Finite(52.0));
      var denominator := Mul(StakedValue(f), Finite(f.snxRate));
      assert weekly.Finite? && share.Finite? && numerator.Finite?;
      if StakedValue(f).Finite? {
        assert f.snxRate != 0.0;
        assert StakedValue(f).v != 0.0;
        assert denominator.Finite? && denominator.v != 0.0;
      }
    }
  }

  // ---------------------------------------------------------------------------
  // The page

  /** What the page displays. */
  datatype DashboardStats = DashboardStats(
    stakedValue: Num,
    stakingApy: Num,
    activeDebt: real,
    currentCRatio: real,
    targetCRatio: real,
    claimed: bool,
    nextFeePeriodStarts: JsDate,
    currentFeePeriodProgress: Num)

  /** The page's derivations over its query results at time `nowMs`, with line 71's APY as written. */
  function DashboardPage(q: PageQueries, nowMs: int): (stats: DashboardStats)
    ensures !stats.stakedValue.NaN? && !stats.stakingApy.NaN?
    ensures stats.activeDebt == (if q.debtData.Some? then q.debtData.value.debtBalance else 0.0)
    ensures stats.nextFeePeriodStarts.Date? <==> InDateRange(NextFeePeriodStartsMs(q.currentFeePeriod))
    ensures !HasStart(q.currentFeePeriod) ==>
              stats.nextFeePeriodStarts == Date(0) && stats.currentFeePeriodProgress == Finite(0.0) && !stats.claimed
    ensures stats.claimed ==>
              q.history.Some? &&
              exists i :: 0 <= i < |q.history.value| &&
                CurrentFeePeriodStartsMs(q.currentFeePeriod) < q.history.value[i].timestamp
                < NextFeePeriodStartsMs(q.currentFeePeriod)
  {
    var f := DefaultFigures(q);
    var claimed := CheckClaimedStatus(q.history, q.currentFeePeriod);
    assert !HasStart(q.currentFeePeriod) ==> !claimed by {
      if !HasStart(q.currentFeePeriod) {
        NoPeriodNeverClaimed(q.history, q.currentFeePeriod);
      }
    }
    DashboardStats(
      OrZero(StakedValue(f)),
      OrZero(StakingApyAsWritten(f)),
      f.activeDebt,
      f.currentCRatio,
      f.targetCRatio,
      claimed,
      NextFeePeriodStarts(q.currentFeePeriod),
      CurrentFeePeriodProgress(q.currentFeePeriod, nowMs))
  }

  /**
   * The page's ratios are the debt data's, or zero without it, and its
   * progress is `currentFeePeriodProgress`.
   */
  lemma PageRatiosAndProgress(q: PageQueries, nowMs: int)
    ensures var stats := DashboardPage(q, nowMs);
            && stats.currentCRatio == (if q.debtData.Some? then q.debtData.value.currentCRatio else 0.0)
            && stats.targetCRatio == (if q.debtData.Some? then q.debtData.value.targetCRatio else 0.0)
            && stats.currentFeePeriodProgress == CurrentFeePeriodProgress(q.currentFeePeriod, nowMs)
  {
  }

  /** With valid bound dates the page's flag is set exactly when some claim lies strictly inside the period. */
  lemma PageClaimed(q: PageQueries, nowMs: int)
    requires InDateRange(CurrentFeePeriodStartsMs(q.currentFeePeriod))
    requires InDateRange(NextFeePeriodStartsMs(q.currentFeePeriod))
    ensures DashboardPage(q, nowMs).claimed <==>
              q.history.Some? &&
              exists i :: 0 <= i < |q.history.value| &&
                CurrentFeePeriodStartsMs(q.currentFeePeriod) < q.history.value[i].timestamp
                < NextFeePeriodStartsMs(q.currentFeePeriod)
  {
    ClaimedIffStrictlyInside(q.history, q.currentFeePeriod);
    assert DashboardPage(q, nowMs).claimed == CheckClaimedStatus(q.history, q.currentFeePeriod);
  }

  /**
   * On ordinary figures (positive ratios, collateral and SNX rate) the page
   * shows the staked value `collateral * min(1, currentCRatio / targetCRatio) * SNXRate`.
   */
  lemma PageStakedValue(q: PageQueries, nowMs: int)
    requires var f := DefaultFigures(q);
             f.targetCRatio > 0.0 && f.currentCRatio > 0.0 && f.collateral > 0.0 && f.snxRate > 0.0
    ensures var f := DefaultFigures(q);
            var ratio := f.currentCRatio / f.targetCRatio;
            DashboardPage(q, nowMs).stakedValue == Finite(f.collateral * (if ratio < 1.0 then ratio else 1.0) * f.snxRate)
  {
    PageShowsStakedValue(q, nowMs);
    OrdinaryStakedValueShown(DefaultFigures(q));
  }

  /** On ordinary figures the staked value is positive, so `stakedValue ? stakedValue : 0` shows it. */
  lemma OrdinaryStakedValueShown(f: Figures)
    requires f.targetCRatio > 0.0 && f.currentCRatio > 0.0 && f.collateral > 0.0 && f.snxRate > 0.0
    ensures var ratio := f.currentCRatio / f.targetCRatio;
            OrZero(StakedValue(f)) == Finite(f.collateral * (if ratio < 1.0 then ratio else 1.0) * f.snxRate)
  {
    var staked := StakedValueOrdinary(f);
  }

  lemma PageShowsStakedValue(q: PageQueries, nowMs: int)
    ensures DashboardPage(q, nowMs).stakedValue == OrZero(StakedValue(DefaultFigures(q)))
  {
  }

  /**
   * Without debt data the page shows zero ratios, zero debt, a zero staked
   * value and a zero APY: the staked value is NaN (zero over zero) and
   * `NaN ? NaN : 0` is zero.
   */
  lemma NoDebtDataShowsZeroes(q: PageQueries, nowMs: int)
    requires q.debtData.None?
    ensures var stats := DashboardPage(q, nowMs);
            && stats.currentCRatio == 0.0 && stats.targetCRatio == 0.0 && stats.activeDebt == 0.0
            && stats.stakedValue == Finite(0.0) && stats.stakingApy == Finite(0.0)
  {
    var f := DefaultFigures(q);
    assert StakedValue(f).NaN?;
  }

  /**
   * With no total-debt figure (absent, or zero) the page shows an APY of
   * +Infinity as soon as the wallet has debt, sUSD fees are to be distributed
   * and the target ratio is positive: the debt share is `debt / 0`, and
   * dividing an infinite numerator by a finite non-negative staked value
   * keeps it infinite.
   */
  lemma PageApyInfiniteWithoutTotalDebt(q: PageQueries, nowMs: int)
    requires q.totalIssuedSynthsExclEth.None? || q.totalIssuedSynthsExclEth == Some(0.0)
    requires NonNegative(DefaultFigures(q))
    requires DefaultFigures(q).activeDebt > 0.0 && DefaultFigures(q).targetCRatio > 0.0
    requires DefaultFigures(q).sUSDRate > 0.0 && DefaultFigures(q).feesToDistribute > 0.0
    ensures DashboardPage(q, nowMs).stakingApy == PosInf
  {
    var f := DefaultFigures(q);
    assert f.totalsUSDDebt == 0.0;
    WeeklyRewardsPositive(f);
    PositiveOverZero(f.activeDebt);
    var numerator := Mul(Mul(WeeklyRewards(f), Div(Finite(f.activeDebt), Finite(f.totalsUSDDebt))), Finite(52.0));
    assert numerator == PosInf;
    StakedValueFinite(f);
    StakedValueBounded(f);
    ScaleBelow(0.0, StakedValue(f).v, f.snxRate);
    assert Mul(StakedValue(f), Finite(f.snxRate)) == Finite(StakedValue(f).v * f.snxRate);
    assert StakingApyAsWritten(f) == PosInf;
  }

  /** A positive target ratio makes the staked value a finite number. */
  lemma StakedValueFinite(f: Figures)
    requires f.targetCRatio > 0.0
    ensures StakedValue(f).Finite?
  {
    var clamp := Min(Finite(1.0), Div(Finite(f.currentCRatio), Finite(f.targetCRatio)));
    assert clamp.Finite?;
  }

  /**
   * With the SNX rate at zero (its query not answered) and sUSD fees, debt and
   * total debt present, the page shows an APY of +Infinity.
   */
  lemma PageApyInfiniteWithoutSnxRate(q: PageQueries, nowMs: int)
    requires q.currencyRates.None?
    requires NonNegative(DefaultFigures(q)) && DefaultFigures(q).targetCRatio > 0.0
    requires DefaultFigures(q).sUSDRate > 0.0 && DefaultFigures(q).feesToDistribute > 0.0
    requires DefaultFigures(q).activeDebt > 0.0 && DefaultFigures(q).totalsUSDDebt > 0.0
    ensures DashboardPage(q, nowMs).stakingApy == PosInf
  {
    StakingApyAsWrittenCanBeInfinite(DefaultFigures(q));
  }
}

=== FILE: js_number.dfy ===
/**
 * The parts of JavaScript arithmetic the dashboard page relies on: numbers
 * that may be NaN or infinite, `Math.min`, truthiness, and `Date` values
 * built from a millisecond count.
 *
 * Finite numbers are exact reals: rounding and the sign of zero are not
 * modelled, so the results below hold for the exact values and for inputs
 * whose computation never produces a negative zero.
 */
module JsNumber {

  datatype Num = Finite(v: real) | NaN | PosInf | NegInf

  /** -1, 0 or 1 for a non-NaN number; 0 for NaN. */
  function Sign(x: Num): int {
    match x
    case Finite(v) => if v > 0.0 then 1 else if v < 0.0 then -1 else 0
    case PosInf => 1
    case NegInf => -1
    case NaN => 0
  }

  /** The infinity of the given sign. */
  function Infinity(positive: bool): Num {
    if positive then PosInf else NegInf
  }

  /** `a + b`. */
  function Add(a: Num, b: Num): (r: Num)
    ensures a.Finite? && b.Finite? ==> r == Finite(a.v + b.v)
    ensures a.NaN? || b.NaN? ==> r.NaN?
  {
    match (a, b)
    case (NaN, _) => NaN
    case (_, NaN) => NaN
    case (PosInf, NegInf) => NaN
    case (NegInf, PosInf) => NaN
    case (PosInf, _) => PosInf
    case (_, PosInf) => PosInf
    case (NegInf, _) => NegInf
    case (_, NegInf) => NegInf
    case (Finite(x), Finite(y)) => Finite(x + y)
  }

  /** `a * b`: an infinity times zero is NaN. */
  function Mul(a: Num, b: Num): (r: Num)
    ensures a.Finite? && b.Finite? ==> r == Finite(a.v * b.v)
    ensures a.NaN? || b.NaN? ==> r.NaN?
  {
    if a.NaN? || b.NaN? then NaN
    else if a.Finite? && b.Finite? then Finite(a.v * b.v)
    else if Sign(a) == 0 || Sign(b) == 0 then NaN
    else Infinity(Sign(a) == Sign(b))
  }

  /**
   * `a / b`: a non-zero finite number over zero is an infinity of its sign,
   * zero over zero and infinity over infinity are NaN, a finite number over
   * an infinity is zero.
   */
  function Div(a: Num, b: Num): (r: Num)
    ensures a.Finite? && b.Finite? && b.v != 0.0 ==> r == Finite(a.v / b.v)
    ensures a.Finite? && b == Finite(0.0) ==> (r.NaN? <==> a.v == 0.0)
    ensures a.NaN? || b.NaN? ==> r.NaN?
  {
    if a.NaN? || b.NaN? then NaN
    else if !a.Finite? && !b.Finite? then NaN
    else if !a.Finite? then Infinity(Sign(a) * (if Sign(b) < 0 then -1 else 1) > 0)
    else if !b.Finite? then Finite(0.0)
    else if b.v != 0.0 then Finite(a.v / b.v)
    else if a.v == 0.0 then NaN
    else Infinity(a.v > 0.0)
  }

  /** A positive number over zero is +Infinity. */
  lemma PositiveOverZero(x: real)
    requires x > 0.0
    ensures Div(Finite(x), Finite(0.0)) == PosInf
  {
  }

  /** `a < b`; every comparison with NaN is false. */
  predicate Less(a: Num, b: Num) {
    match (a, b)
    case (Finite(x), Finite(y)) => x < y
    case (NegInf, PosInf) => true
    case (NegInf, Finite(_)) => true
    case (Finite(_), PosInf) => true
    case _ => false
  }

  /** `Math.min(a, b)`: NaN when either is NaN. */
  function Min(a: Num, b: Num): (r: Num)
    ensures a.NaN? || b.NaN? ==> r.NaN?
    ensures !a.NaN? && !b.NaN? ==> (r == a || r == b) && !Less(a, r) && !Less(b, r)
  {
    if a.NaN? || b.NaN? then NaN
    else if Less(b, a) then b
    else a
  }

  /** JavaScript truthiness: zero and NaN are falsy. */
  predicate Truthy(x: Num) {
    match x
    case Finite(v) => v != 0.0
    case NaN => false
    case _ => true
  }

  /** `x ? x : 0`, which the page uses before displaying a figure. */
  function OrZero(x: Num): (r: Num)
    ensures !r.NaN?
    ensures Truthy(x) ==> r == x
    ensures !Truthy(x) ==> r == Finite(0.0)
  {
    if Truthy(x) then x else Finite(0.0)
  }

  /** The largest magnitude of a valid `Date`'s time value, in milliseconds (100 000 000 days). */
  const MaxTimeMs: int := 8_640_000_000_000_000

  /** A `Date`: a millisecond time value, or the invalid date. */
  datatype JsDate = Date(ms: int) | InvalidDate

  predicate InDateRange(ms: int) {
    -MaxTimeMs <= ms <= MaxTimeMs
  }

  /** `new Date(ms)` for an integral `ms`: valid exactly within the time-value range. */
  function MakeDate(ms: int): (d: JsDate)
    ensures d.Date? <==> InDateRange(ms)
    ensures d.Date? ==> d.ms == ms
  {
    if InDateRange(ms) then Date(ms) else InvalidDate
  }

  /** `a < b` on dates: compares time values, and is false when either date is invalid. */
  predicate Before(a: JsDate, b: JsDate) {
    a.Date? && b.Date? && a.ms < b.ms
  }
}

=== FILE: order_by.dfy ===
/**
 * A stable descending sort by a real-valued key: the behaviour of lodash's
 * `orderBy(xs, key, 'desc')` when every key is an ordinary number. Elements
 * come out largest key first, and elements with equal keys keep the order
 * they had in the input.
 */
module OrderBy {

  /** Keys never increase from left to right. */
  ghost predicate SortedDesc<T>(s: seq<T>, key: T -> real) {
    forall i, j :: 0 <= i < j < |s| ==> key(s[i]) >= key(s[j])
  }

  /** The elements of `s` whose key is exactly `v`, in the order of `s`. */
  function WithKey<T>(s: seq<T>, key: T -> real, v: real): seq<T> {
    if s == [] then []
    else (if key(s[0]) == v then [s[0]] else []) + WithKey(s[1..], key, v)
  }

  /**
   * Inserts `x` into the sorted `t` in front of the first element whose key
   * is not larger than its own. Used with an `x` that came before every
   * element of `t` in the input, this keeps ties in input order.
   */
  function Insert<T>(x: T, t: seq<T>, key: T -> real): (r: seq<T>)
    requires SortedDesc(t, key)
    ensures multiset(r) == multiset(t) + multiset{x}
    ensures r[0] == x || (t != [] && r[0] == t[0])
    ensures SortedDesc(r, key)
  {
    if t == [] || key(x) >= key(t[0]) then
      ConsSorted(x, t, key);
      [x] + t
    else
      assert t == [t[0]] + t[1..];
      var rest := Insert(x, t[1..], key);
      ConsSorted(t[0], rest, key);
      [t[0]] + rest
  }

  /** A key no smaller than the head's may be put in front of a descending list. */
  lemma ConsSorted<T>(a: T, s: seq<T>, key: T -> real)
    requires SortedDesc(s, key)
    requires s != [] ==> key(a) >= key(s[0])
    ensures SortedDesc([a] + s, key)
  {
    var r := [a] + s;
    forall i, j | 0 <= i < j < |r| ensures key(r[i]) >= key(r[j]) {
      if i == 0 {
        assert r[j] == s[j - 1];
        assert key(s[0]) >= key(s[j - 1]);
      } else {
        assert r[i] == s[i - 1] && r[j] == s[j - 1];
      }
    }
  }

  /** Insertion sort, descending by `key`, stable. */
  function SortDesc<T>(s: seq<T>, key: T -> real): (r: seq<T>)
    ensures multiset(r) == multiset(s)
    ensures SortedDesc(r, key)
  {
    if s == [] then []
    else
      assert s == [s[0]] + s[1..];
      Insert(s[0], SortDesc(s[1..], key), key)
  }

  /** Inserting `x` adds it to the run of its key and leaves every other run as it was. */
  lemma {:induction false} InsertWithKey<T>(x: T, t: seq<T>, key: T -> real, v: real)
    requires SortedDesc(t, key)
    ensures WithKey(Insert(x, t, key), key, v)
            == (if key(x) == v then [x] else []) + WithKey(t, key, v)
  {
    var xs := if key(x) == v then [x] else [];
    if t == [] || key(x) >= key(t[0]) {
      var r := [x] + t;
      assert r[0] == x && r[1..] == t;
      assert WithKey(r, key, v) == xs + WithKey(t, key, v);
    } else {
      var rest := Insert(x, t[1..], key);
      var r := [t[0]] + rest;
      var ts := if key(t[0]) == v then [t[0]] else [];
      InsertWithKey(x, t[1..], key, v);
      assert r[0] == t[0] && r[1..] == rest;
      assert WithKey(r, key, v) == ts + (xs + WithKey(t[1..], key, v));
      assert WithKey(t, key, v) == ts + WithKey(t[1..], key, v);
      assert xs == [] || ts == [];
    }
  }

  /**
   * Stability: for every key value, the elements carrying it appear in the
   * output in exactly the order they had in the input.
   */
  lemma {:induction false} SortDescStable<T>(s: seq<T>, key: T -> real, v: real)
    ensures WithKey(SortDesc(s, key), key, v) == WithKey(s, key, v)
  {
    if s != [] {
      SortDescStable(s[1..], key, v);
      InsertWithKey(s[0], SortDesc(s[1..], key), key, v);
    }
  }

  /**
   * `a` goes strictly before `b`: a larger key, or the same key and an
   * earlier input position as recorded by `rank`.
   */
  predicate Precedes<T>(a: T, b: T, key: T -> real, rank: T -> int) {
    key(a) > key(b) || (key(a) == key(b) && rank(a) < rank(b))
  }

  /** The ranks of `s` strictly increase: `rank` records the input order. */
  ghost predicate StrictlyRanked<T>(s: seq<T>, rank: T -> int) {
    forall i, j :: 0 <= i < j < |s| ==> rank(s[i]) < rank(s[j])
  }

  /** Every element of `s` strictly precedes every later one. */
  ghost predicate OrderedBy<T>(s: seq<T>, key: T -> real, rank: T -> int) {
    forall i, j :: 0 <= i < j < |s| ==> Precedes(s[i], s[j], key, rank)
  }

  lemma OrderedIsSortedDesc<T>(s: seq<T>, key: T -> real, rank: T -> int)
    requires OrderedBy(s, key, rank)
    ensures SortedDesc(s, key)
  {
  }

  lemma {:induction false} InsertOrdered<T>(x: T, t: seq<T>, key: T -> real, rank: T -> int)
    requires OrderedBy(t, key, rank)
    requires forall y :: y in t ==> rank(x) < rank(y)
    ensures SortedDesc(t, key)
    ensures OrderedBy(Insert(x, t, key), key, rank)
  {
    OrderedIsSortedDesc(t, key, rank);
    if t == [] || key(x) >= key(t[0]) {
      forall y | y in t ensures Precedes(x, y, key, rank) {
        HeadPrecedesMembers(t, y, key, rank);
      }
      ConsOrdered(x, t, key, rank);
    } else {
      assert t == [t[0]] + t[1..];
      OrderedTail(t, key, rank);
      InsertOrdered(x, t[1..], key, rank);
      var rest := Insert(x, t[1..], key);
      forall y | y in rest ensures Precedes(t[0], y, key, rank) {
        assert y in multiset(rest);
        if y != x {
          assert y in multiset(t[1..]);
          assert y in t;
          HeadPrecedesMembers(t, y, key, rank);
        }
      }
      ConsOrdered(t[0], rest, key, rank);
    }
  }

  /** An element that precedes every member of an ordered list may be put in front of it. */
  lemma ConsOrdered<T>(a: T, s: seq<T>, key: T -> real, rank: T -> int)
    requires OrderedBy(s, key, rank)
    requires forall y :: y in s ==> Precedes(a, y, key, rank)
    ensures OrderedBy([a] + s, key, rank)
  {
    var r := [a] + s;
    forall i, j | 0 <= i < j < |r| ensures Precedes(r[i], r[j], key, rank) {
      if i == 0 {
        assert r[j] == s[j - 1] && s[j - 1] in s;
      } else {
        assert r[i] == s[i - 1] && r[j] == s[j - 1];
      }
    }
  }

  /**
   * When the input is listed in rank order, the stable sort puts larger keys
   * first and breaks every tie by rank.
   */
  lemma {:induction false} SortDescOrdered<T>(s: seq<T>, key: T -> real, rank: T -> int)
    requires StrictlyRanked(s, rank)
    ensures OrderedBy(SortDesc(s, key), key, rank)
  {
    if s != [] {
      assert s == [s[0]] + s[1..];
      SortDescOrdered(s[1..], key, rank);
      var t := SortDesc(s[1..], key);
      forall y | y in t ensures rank(s[0]) < rank(y) {
        assert y in multiset(t);
        assert y in multiset(s[1..]);
        var k :| 0 <= k < |s[1..]| && s[1..][k] == y;
        assert s[k + 1] == y;
      }
      InsertOrdered(s[0], t, key, rank);
    }
  }

  /** The head of an ordered list precedes every other member. */
  lemma HeadPrecedesMembers<T>(a: seq<T>, y: T, key: T -> real, rank: T -> int)
    requires OrderedBy(a, key, rank)
    requires y in a
    ensures y == a[0] || Precedes(a[0], y, key, rank)
  {
    var k :| 0 <= k < |a| && a[k] == y;
    if k != 0 {
      assert Precedes(a[0], a[k], key, rank);
    }
  }

  /**
   * There is only one strictly ordered arrangement of a given multiset of
   * elements, so `OrderedBy` together with the multiset determines a list.
   */
  lemma {:induction false} OrderedUnique<T>(a: seq<T>, b: seq<T>, key: T -> real, rank: T -> int)
    requires OrderedBy(a, key, rank) && OrderedBy(b, key, rank)
    requires multiset(a) == multiset(b)
    ensures a == b
  {
    assert |a| == |multiset(a)| == |multiset(b)| == |b|;
    if a != [] {
      assert a[0] in multiset(b) && b[0] in multiset(a);
      HeadPrecedesMembers(a, b[0], key, rank);
      HeadPrecedesMembers(b, a[0], key, rank);
      assert a[0] == b[0];
      assert a == [a[0]] + a[1..];
      assert b == [b[0]] + b[1..];
      assert multiset(a[1..]) == multiset(a) - multiset{a[0]};
      assert multiset(b[1..]) == multiset(b) - multiset{b[0]};
      assert multiset(a[1..]) == multiset(b[1..]);
      OrderedTail(a, key, rank);
      OrderedTail(b, key, rank);
      OrderedUnique(a[1..], b[1..], key, rank);
    }
  }

  lemma OrderedTail<T>(a: seq<T>, key: T -> real, rank: T -> int)
    requires OrderedBy(a, key, rank) && a != []
    ensures OrderedBy(a[1..], key, rank)
  {
    forall i, j | 0 <= i < j < |a[1..]| ensures Precedes(a[1..][i], a[1..][j], key, rank) {
      assert a[1..][i] == a[i + 1] && a[1..][j] == a[j + 1];
    }
  }

  /** `f` applied to every element of `s`. */
  function MapSeq<T>(f: T -> T, s: seq<T>): (r: seq<T>)
    ensures |r| == |s|
    ensures forall i :: 0 <= i < |s| ==> r[i] == f(s[i])
  {
    if s == [] then [] else [f(s[0])] + MapSeq(f, s[1..])
  }

  /** A key-preserving map keeps a list descending. */
  lemma MapSorted<T>(f: T -> T, t: seq<T>, key: T -> real)
    requires forall y :: key(f(y)) == key(y)
    requires SortedDesc(t, key)
    ensures SortedDesc(MapSeq(f, t), key)
  {
    var ft := MapSeq(f, t);
    forall i, j | 0 <= i < j < |ft| ensures key(ft[i]) >= key(ft[j]) {
      assert key(ft[i]) == key(t[i]) && key(ft[j]) == key(t[j]);
    }
  }

  lemma {:induction false} InsertMap<T>(f: T -> T, x: T, t: seq<T>, key: T -> real)
    requires forall y :: key(f(y)) == key(y)
    requires SortedDesc(t, key)
    ensures SortedDesc(MapSeq(f, t), key)
    ensures Insert(f(x), MapSeq(f, t), key) == MapSeq(f, Insert(x, t, key))
  {
    MapSorted(f, t, key);
    var ft := MapSeq(f, t);
    if t == [] || key(x) >= key(t[0]) {
      assert t != [] ==> key(f(x)) >= key(ft[0]);
      assert Insert(f(x), ft, key) == [f(x)] + ft;
      assert MapSeq(f, [x] + t) == [f(x)] + ft;
    } else {
      assert key(f(x)) < key(ft[0]);
      assert ft[1..] == MapSeq(f, t[1..]);
      OrderedTailSorted(t, key);
      InsertMap(f, x, t[1..], key);
      var rest := Insert(x, t[1..], key);
      assert Insert(f(x), ft, key) == [ft[0]] + Insert(f(x), ft[1..], key);
      assert MapSeq(f, [t[0]] + rest) == [f(t[0])] + MapSeq(f, rest);
    }
  }

  lemma OrderedTailSorted<T>(t: seq<T>, key: T -> real)
    requires SortedDesc(t, key) && t != []
    ensures SortedDesc(t[1..], key)
  {
    forall i, j | 0 <= i < j < |t[1..]| ensures key(t[1..][i]) >= key(t[1..][j]) {
      assert t[1..][i] == t[i + 1] && t[1..][j] == t[j + 1];
    }
  }

  /** Sorting commutes with any map that keeps every key. */
  lemma {:induction false} SortDescMap<T>(f: T -> T, s: seq<T>, key: T -> real)
    requires forall y :: key(f(y)) == key(y)
    ensures SortDesc(MapSeq(f, s), key) == MapSeq(f, SortDesc(s, key))
  {
    if s != [] {
      assert MapSeq(f, s)[1..] == MapSeq(f, s[1..]);
      SortDescMap(f, s[1..], key);
      InsertMap(f, s[0], SortDesc(s[1..], key), key);
    }
  }
}

=== FILE: queries.dfy ===
/**
 * The shape in which the dashboard receives the results of its asynchronous
 * queries. The query layer itself (transport, caching, retries) is outside
 * the model: its results are plain inputs.
 */
module Queries {
  import opened Wrappers

  /**
   * A query as the hooks see it: whether it has succeeded, and the data it
   * holds. The two are read separately by the source, so they are kept
   * separate here (a failed refetch may still hold earlier data).
   */
  datatype Query<T> = Query(isSuccess: bool, data: Option<T>)

  /** The debt snapshot of a wallet. */
  datatype DebtData = DebtData(
    collateral: real,
    currentCRatio: real,
    targetCRatio: real,
    debtBalance: real,
    transferable: real)
}

=== FILE: tokens.dfy ===
/**
 * The list of token definitions whose balances the dashboard requests for a
 * wallet (hooks/useCryptoBalances.ts, lines 34-89). The list depends on the
 * active network: ETH and SNX always, and WBTC, WETH and renBTC on mainnet.
 */
module Tokens {
  import opened Wrappers

  /** `NetworkId.Mainnet`. */
  const MainnetId: int := 1

  /** `ethers.constants.AddressZero`. */
  const AddressZero: string := "0x0000000000000000000000000000000000000000"

  /** The active network, when one is known. */
  datatype Network = Network(id: int, name: string)

  /** A token whose balance is requested. */
  datatype TokenDef = TokenDef(symbol: string, address: string, decimals: nat, name: string, chainId: int)

  /**
   * Contract addresses the list is built from: the SNX token's address per
   * network name, the WBTC and WETH addresses, and renBTC's mainnet address.
   */
  datatype ContractAddresses = ContractAddresses(
    snxByNetwork: map<string, string>,
    wbtc: string,
    weth: string,
    renBtcMainnet: string)

  predicate IsMainnet(network: Option<Network>) {
    network.Some? && network.value.id == MainnetId
  }

  /** The network name used to look up the SNX address; an absent or empty name reads as "mainnet". */
  function NetworkName(network: Option<Network>): (name: string)
    ensures name != ""
    ensures network.Some? && network.value.name != "" ==> name == network.value.name
    ensures !(network.Some? && network.value.name != "") ==> name == "mainnet"
  {
    if network.Some? && network.value.name != "" then network.value.name else "mainnet"
  }

  /** The SNX token's address on the network, or the zero address when none (or an empty one) is recorded. */
  function SnxAddress(network: Option<Network>, contracts: ContractAddresses): (address: string)
    ensures address != ""
    ensures address != AddressZero ==>
              NetworkName(network) in contracts.snxByNetwork
              && address == contracts.snxByNetwork[NetworkName(network)]
    ensures NetworkName(network) in contracts.snxByNetwork && contracts.snxByNetwork[NetworkName(network)] != "" ==>
              address == contracts.snxByNetwork[NetworkName(network)]
  {
    var name := NetworkName(network);
    if name in contracts.snxByNetwork && contracts.snxByNetwork[name] != ""
    then contracts.snxByNetwork[name]
    else AddressZero
  }

  function Token(symbol: string, address: string, name: string): TokenDef {
    TokenDef(symbol, address, 18, name, 1)
  }

  /** The token list of lines 34-89. */
  function TokenDefs(network: Option<Network>, contracts: ContractAddresses): (defs: seq<TokenDef>)
    ensures |defs| == if IsMainnet(network) then 5 else 2
    ensures defs[0].symbol == "ETH" && defs[0].address == AddressZero
    ensures defs[1].symbol == "SNX" && defs[1].address == SnxAddress(network, contracts)
    ensures IsMainnet(network) ==>
              defs[2].symbol == "WBTC" && defs[3].symbol == "WETH" && defs[4].symbol == "renBTC"
    ensures forall i :: 0 <= i < |defs| ==> defs[i].decimals == 18 && defs[i].chainId == 1
  {
    var base := [
      Token("ETH", AddressZero, "Ethereum"),
      Token("SNX", SnxAddress(network, contracts), "Synthetix Network Token")
    ];
    if IsMainnet(network) then
      base + [
        Token("WBTC", contracts.wbtc, "Wrapped Bitcoin"),
        Token("WETH", contracts.weth, "Wrapped Ethereum"),
        Token("renBTC", contracts.renBtcMainnet, "renBTC")
      ]
    else base
  }

  /** The symbols of a token list. */
  function Symbols(defs: seq<TokenDef>): (symbols: set<string>)
    ensures forall i :: 0 <= i < |defs| ==> defs[i].symbol in symbols
    ensures forall s :: s in symbols ==> exists i :: 0 <= i < |defs| && defs[i].symbol == s
  {
    set i | 0 <= i < |defs| :: defs[i].symbol
  }

  /** The symbols requested on a network: ETH and SNX, plus the three wrapped tokens on mainnet. */
  lemma RequestedSymbols(network: Option<Network>, contracts: ContractAddresses)
    ensures Symbols(TokenDefs(network, contracts))
            == {"ETH", "SNX"} + (if IsMainnet(network) then {"WBTC", "WETH", "renBTC"} else {})
  {
    var defs := TokenDefs(network, contracts);
    var expected := {"ETH", "SNX"} + (if IsMainnet(network) then {"WBTC", "WETH", "renBTC"} else {});
    forall s | s in expected ensures s in Symbols(defs) {
      if s == "ETH" { assert defs[0].symbol == s; }
      else if s == "SNX" { assert defs[1].symbol == s; }
      else if s == "WBTC" { assert defs[2].symbol == s; }
      else if s == "WETH" { assert defs[3].symbol == s; }
      else { assert defs[4].symbol == s; }
    }
  }
}

=== FILE: wrappers.dfy ===
/** Option and Result, shared by the other modules. */
module Wrappers {

  /** A value that may be absent: an unresolved query, a missing field. */
  datatype Option<+T> = None | Some(value: T) {

    /** The wrapped value, or `default` when there is none (JavaScript's `x ?? default`). */
    function GetOr(default: T): T {
      match this
      case Some(v) => v
      case None => default
    }
  }

  /** A computed value or the reason it could not be computed. */
  datatype Result<+R, +E> = Success(value: R) | Failure(error: E)
}
